=== FILE: README.md ===
# Local component metadata, sample includes, plugin accessors: a Dafny model

This project models six pieces of sequential logic from the Gradle build tool and
proves properties of them. Each piece is its own module.

- `Capabilities` (capability.dfy) models `ImmutableShadowedCapability`. A capability
  wrapped under an appendix keeps its group and version, and gains the appendix on
  its name and id. The constructor snapshots a wrapped capability that is not already
  immutable.
- `DistributionLocator` (distribution.dfy) models where a distribution is downloaded
  from. The repository depends on the snapshot flag, and the archive location has a
  fixed shape.
- `SampleInclude` (sample_include.dfy) models the text processing of the
  documentation's `sample` include processor:
  - the attribute check;
  - the highlighting syntax chosen by file suffix;
  - removal of `[...]` groups from a file declaration;
  - tag parsing;
  - the tagged-region line filter, a small state machine;
  - removal of common indentation.
  `Text` (text.dfy) holds the Java string-library behaviour this relies on:
  `lastIndexOf`, `contains`, `String.join`, `String.split`, `splitAsStream` and
  `readLine`.
- `PluginAccessors` (plugin_accessors.dfy) models how the Kotlin DSL flattens a tree
  of plugin ids into accessors, in pre-order, and the naming helpers used for group
  types.
- `LocalConfiguration` (local_configuration.dfy) models
  `DefaultLocalConfigurationMetadata`:
  - the immutable record;
  - the de-duplicated artifact list: own artifacts first, then inherited ones;
  - lookup of an artifact by name;
  - copying under a memoised artifact transformer.
- `LocalComponent` (local_component.dfy) models `DefaultLocalComponentMetadata`:
  - an insertion-ordered registry of lazily realised configurations, each entry
    explicitly `Unrealized` or `Realized`, with the eager consumable flags;
  - artifact resolution across the configuration hierarchy, with the artifact cell
    state threaded through the component;
  - the once-computed variants for graph traversal;
  - the deep copy through one memo;
  - re-evaluation.

`Wrappers` (wrappers.dfy) holds `Option` and `Result`. An operation that throws in
the source returns `Err` in the model, with one exception listed under "Left out".
A `null` answer is `None`.

## Model

| member | source | states |
|---|---|---|
| Capabilities.Shadow | subprojects/dependency-management/src/main/java/org/gradle/internal/component/external/model/ImmutableShadowedCapability.java:29-38 | the result is a shadow holding exactly the given appendix; the wrapped value is never a non-immutable capability; an input that is deeply immutable, or any other capability, gives a deeply immutable shadow |
| Capabilities.Snapshot | subprojects/dependency-management/src/main/java/org/gradle/internal/component/external/model/ImmutableShadowedCapability.java:30-36 | the stored capability is never a mutable one and has the input's group, name, version and id; an immutable or shadowed input is kept as it is, any other is copied into an immutable one |
| Capabilities.ShadowKeepsGroupAndVersion | subprojects/dependency-management/src/main/java/org/gradle/internal/component/external/model/ImmutableShadowedCapability.java:50-63 | group and version of a shadow are those of the wrapped capability |
| Capabilities.ShadowAppendsToName | subprojects/dependency-management/src/main/java/org/gradle/internal/component/external/model/ImmutableShadowedCapability.java:56-58 | the name is the wrapped name followed by the appendix |
| Capabilities.ShadowAppendsToId | subprojects/dependency-management/src/main/java/org/gradle/internal/component/external/model/ImmutableShadowedCapability.java:66-68 | the capability id is the wrapped id followed by the appendix |
| Capabilities.ShadowKeepsImmutableInput | subprojects/dependency-management/src/main/java/org/gradle/internal/component/external/model/ImmutableShadowedCapability.java:30-33 | an immutable or already shadowed input is stored as the wrapped capability, unchanged |
| Capabilities.ShadowSnapshotsOtherInput | subprojects/dependency-management/src/main/java/org/gradle/internal/component/external/model/ImmutableShadowedCapability.java:34-36 | any other input is replaced by an immutable capability of its group, name and version; two such inputs that agree on those three give equal shadows, so no other state of the input is kept |
| Capabilities.NestedShadow | subprojects/dependency-management/src/main/java/org/gradle/internal/component/external/model/ImmutableShadowedCapability.java:29-68 | shadowing a shadow nests: name and id gain both appendices in order, and the wrapped capability is the inner shadow |
| DistributionLocator.Distribution | subprojects/core/src/main/java/org/gradle/util/internal/DistributionLocator.java:47-56 | the location starts with the repository followed by `/` and ends with `.zip` |
| DistributionLocator.RepositoriesUnderServicesBase | subprojects/core/src/main/java/org/gradle/util/internal/DistributionLocator.java:26-29 | both repositories lie under the services base URL |
| DistributionLocator.DistributionFor | subprojects/core/src/main/java/org/gradle/util/internal/DistributionLocator.java:35-37 | the location starts with the services base URL, ends with `.zip`, and is the chosen repository followed by `/gradle-`, the version, `-`, the type and `.zip` |
| DistributionLocator.DefaultDistributionFor | subprojects/core/src/main/java/org/gradle/util/internal/DistributionLocator.java:31-33 | the one-argument overload gives the `bin` archive: the chosen repository, `/gradle-`, the version, then `-bin.zip` |
| DistributionLocator.SnapshotLocationIffSnapshotVersion | subprojects/core/src/main/java/org/gradle/util/internal/DistributionLocator.java:39-45 | a location lies in the snapshot repository if and only if the version is a snapshot |
| SampleInclude.Handles | subprojects/docs-asciidoctor-extensions-base/src/main/java/org/gradle/docs/asciidoctor/SampleIncludeProcessor.java:60-63 | the processor handles a target exactly when it is `sample` |
| SampleInclude.ReadRequest | subprojects/docs-asciidoctor-extensions-base/src/main/java/org/gradle/docs/asciidoctor/SampleIncludeProcessor.java:66-73 | it fails, with the fixed message, exactly when `dir` or `files` is missing; otherwise the directory is `dir`, the files are `files` split on `;`, and the base directory is `samples-dir` or `.` |
| SampleInclude.SourceSyntax | subprojects/docs-asciidoctor-extensions-base/src/main/java/org/gradle/docs/asciidoctor/SampleIncludeProcessor.java:79-87 | a name with no dot past its first character gets `txt`; otherwise the syntax is the one mapped from the text after the last dot |
| SampleInclude.SourceSyntaxOfExtension | subprojects/docs-asciidoctor-extensions-base/src/main/java/org/gradle/docs/asciidoctor/SampleIncludeProcessor.java:79-87 | a name with a non-empty stem and a dot-free extension gets the syntax mapped from that extension, or the extension itself when unmapped |
| SampleInclude.SourceSyntaxExamples | subprojects/docs-asciidoctor-extensions-base/src/main/java/org/gradle/docs/asciidoctor/SampleIncludeProcessor.java:36-46 | `settings.gradle.kts` is kotlin, `build.gradle` is groovy, `Main.java` is java, `.gitignore` is txt |
| SampleInclude.RemoveBracketGroups | subprojects/docs-asciidoctor-extensions-base/src/main/java/org/gradle/docs/asciidoctor/SampleIncludeProcessor.java:116-118 | the path is no longer than the declaration and holds only its characters; what the removal leaves is stated by the three lemmas below |
| SampleInclude.NoBracketGroupRemains | subprojects/docs-asciidoctor-extensions-base/src/main/java/org/gradle/docs/asciidoctor/SampleIncludeProcessor.java:116-118 | after removal, no `[` is followed anywhere later by a `]` |
| SampleInclude.NoOpeningBracketUnchanged | subprojects/docs-asciidoctor-extensions-base/src/main/java/org/gradle/docs/asciidoctor/SampleIncludeProcessor.java:116-118 | text without `[` is left exactly as it is |
| SampleInclude.TrailingGroupRemoved | subprojects/docs-asciidoctor-extensions-base/src/main/java/org/gradle/docs/asciidoctor/SampleIncludeProcessor.java:116-118 | `path[group]` becomes `path` when the path has no `[` and the group has no `]` |
| SampleInclude.ParseTags | subprojects/docs-asciidoctor-extensions-base/src/main/java/org/gradle/docs/asciidoctor/SampleIncludeProcessor.java:120-128 | tags are found only for a declaration on one line that opens a `[tag` group somewhere |
| SampleInclude.LastTagGroup | subprojects/docs-asciidoctor-extensions-base/src/main/java/org/gradle/docs/asciidoctor/SampleIncludeProcessor.java:122-124 | the chosen group opening is the rightmost one that can take part in a whole-string match, where `.` excludes line terminators; none is chosen only when none can |
| SampleInclude.TagsOfDeclaration | subprojects/docs-asciidoctor-extensions-base/src/main/java/org/gradle/docs/asciidoctor/SampleIncludeProcessor.java:120-128 | `path[tags=list]` on one line yields the list split on `,`, whatever brackets the path holds |
| SampleInclude.ParseTagsExample | subprojects/docs-asciidoctor-extensions-base/src/main/java/org/gradle/docs/asciidoctor/SampleIncludeProcessor.java:120-128 | `f[tags=a,b]` yields `a` and `b` |
| SampleInclude.TagGroupAfterNewlineIgnored | subprojects/docs-asciidoctor-extensions-base/src/main/java/org/gradle/docs/asciidoctor/SampleIncludeProcessor.java:120-128 | `f\n[tags=list]` has no tags, whatever the list |
| SampleInclude.NoTagGroupNoTags | subprojects/docs-asciidoctor-extensions-base/src/main/java/org/gradle/docs/asciidoctor/SampleIncludeProcessor.java:120-128 | a declaration containing no `[tag` has no tags |
| SampleInclude.NoOpeningBracketNoTags | subprojects/docs-asciidoctor-extensions-base/src/main/java/org/gradle/docs/asciidoctor/SampleIncludeProcessor.java:120-128 | a declaration without `[` has no tags |
| SampleInclude.PlainMarkerExample | subprojects/docs-asciidoctor-extensions-base/src/main/java/org/gradle/docs/asciidoctor/SampleIncludeProcessor.java:137 | `# tag::a[]` is a marker line outside HTML and XML |
| SampleInclude.PlainLineExample | subprojects/docs-asciidoctor-extensions-base/src/main/java/org/gradle/docs/asciidoctor/SampleIncludeProcessor.java:137 | `x = 1` is not a marker line |
| SampleInclude.DetermineActiveTag | subprojects/docs-asciidoctor-extensions-base/src/main/java/org/gradle/docs/asciidoctor/SampleIncludeProcessor.java:177-184 | no tag is chosen exactly when the line contains the opening directive of no listed tag |
| SampleInclude.ActiveTagIsFirstMatch | subprojects/docs-asciidoctor-extensions-base/src/main/java/org/gradle/docs/asciidoctor/SampleIncludeProcessor.java:177-184 | the chosen tag is listed, its opening directive is in the line, and no earlier listed tag's is |
| SampleInclude.NonMarkers | subprojects/docs-asciidoctor-extensions-base/src/main/java/org/gradle/docs/asciidoctor/SampleIncludeProcessor.java:148-152 | the kept lines are a subsequence of the input, and each line occurs in the result exactly as often as in the input when it is not a marker and never when it is |
| SampleInclude.FilterByTag | subprojects/docs-asciidoctor-extensions-base/src/main/java/org/gradle/docs/asciidoctor/SampleIncludeProcessor.java:135-175 | the one-pass loop over the lines builds exactly the text the region state machine describes; with the single tag `**` the result is the non-marker lines joined by `\n` |
| SampleInclude.ProcessLine | subprojects/docs-asciidoctor-extensions-base/src/main/java/org/gradle/docs/asciidoctor/SampleIncludeProcessor.java:159-167 | one loop iteration emits what the state machine outputs for that line and moves to the state it moves to |
| SampleInclude.RegionLinesAreSubsequence | subprojects/docs-asciidoctor-extensions-base/src/main/java/org/gradle/docs/asciidoctor/SampleIncludeProcessor.java:154-168 | the filtered lines are input lines, in input order |
| SampleInclude.RegionLinesHaveNoMarkers | subprojects/docs-asciidoctor-extensions-base/src/main/java/org/gradle/docs/asciidoctor/SampleIncludeProcessor.java:159-164 | no marker line is ever output |
| SampleInclude.NoOpeningNoOutput | subprojects/docs-asciidoctor-extensions-base/src/main/java/org/gradle/docs/asciidoctor/SampleIncludeProcessor.java:165-167 | without an opening directive of a listed tag nothing is output |
| SampleInclude.RegionBody | subprojects/docs-asciidoctor-extensions-base/src/main/java/org/gradle/docs/asciidoctor/SampleIncludeProcessor.java:159-164 | inside a region, the lines up to the first one holding the end directive are kept unless they are markers, and filtering then resumes outside |
| SampleInclude.RegionAfterOpening | subprojects/docs-asciidoctor-extensions-base/src/main/java/org/gradle/docs/asciidoctor/SampleIncludeProcessor.java:154-168 | after an opening line for the first matching tag, the output is the region's non-marker lines followed by what the rest yields; the opening and closing lines are not output |
| SampleInclude.MinIndent | subprojects/docs-asciidoctor-extensions-base/src/main/java/org/gradle/docs/asciidoctor/SampleIncludeProcessor.java:205-221 | the result is at most the indentation of every measured line and equals one of them; it is 0 when no line is measured |
| SampleInclude.TrimLineAsWritten | subprojects/docs-asciidoctor-extensions-base/src/main/java/org/gradle/docs/asciidoctor/SampleIncludeProcessor.java:196-201 | one line fails exactly when it is not blank and shorter than the indentation; otherwise a non-blank line is its removed prefix followed by the result |
| SampleInclude.TrimIndentAsWritten | subprojects/docs-asciidoctor-extensions-base/src/main/java/org/gradle/docs/asciidoctor/SampleIncludeProcessor.java:186-203 | the source's `trimIndent` fails exactly when the least indentation is positive and some line cannot lose it |
| SampleInclude.TrimAllAsWritten | subprojects/docs-asciidoctor-extensions-base/src/main/java/org/gradle/docs/asciidoctor/SampleIncludeProcessor.java:196-201 | the loop fails exactly when some line fails |
| SampleInclude.TrimLines | subprojects/docs-asciidoctor-extensions-base/src/main/java/org/gradle/docs/asciidoctor/SampleIncludeProcessor.java:196-201 | the corrected loop keeps the line count; each non-blank line at least as long as the indentation is the removed prefix, all whitespace, followed by its result; a blank line, or a shorter one, becomes empty |
| SampleInclude.WhitespaceOnlyLineBreaksTrimIndent | subprojects/docs-asciidoctor-extensions-base/src/main/java/org/gradle/docs/asciidoctor/SampleIncludeProcessor.java:186-221 | `"  x"`, a line break, then a line holding only U+2000 makes the source's `trimIndent` fail |
| SampleInclude.WhitespaceOnlyLineBecomesEmpty | subprojects/docs-asciidoctor-extensions-base/src/main/java/org/gradle/docs/asciidoctor/SampleIncludeProcessor.java:186-221 | on that same text the corrected `trimIndent` gives `x`, a newline, and an empty line |
| SampleInclude.TrimIndentKeepsUnindentedSource | subprojects/docs-asciidoctor-extensions-base/src/main/java/org/gradle/docs/asciidoctor/SampleIncludeProcessor.java:189-192 | with no measured line, or a measured line without indentation, both variants return the source unchanged |
| SampleInclude.TrimIndent | subprojects/docs-asciidoctor-extensions-base/src/main/java/org/gradle/docs/asciidoctor/SampleIncludeProcessor.java:186-203 | the corrected `trimIndent` returns the source unchanged when the least indentation is 0, and otherwise the trimmed lines each followed by the platform newline; whenever the source's `trimIndent` succeeds, both return the same text |
| SampleInclude.TerminateEachAppend | subprojects/docs-asciidoctor-extensions-base/src/main/java/org/gradle/docs/asciidoctor/SampleIncludeProcessor.java:194-201 | appending a newline after each line distributes over concatenation, so the text is every line followed by the newline, in order |
| SampleInclude.TrimmedIndentation | subprojects/docs-asciidoctor-extensions-base/src/main/java/org/gradle/docs/asciidoctor/SampleIncludeProcessor.java:186-221 | every measured line's indentation drops by exactly the least indentation, and when that is positive some measured line is left non-empty with none |
| PluginAccessors.AccessorsFor | subprojects/kotlin-dsl/src/main/kotlin/org/gradle/kotlin/dsl/accessors/PluginAccessorsClassPath.kt:758-787 | one accessor per node: the extension names are the trees' keys in pre-order, in map order, and the exposed implementation classes are exactly the classes of the plugin leaves, left to right |
| PluginAccessors.ImplementationClassesExposedBy | subprojects/kotlin-dsl/src/main/kotlin/org/gradle/kotlin/dsl/accessors/PluginAccessorsClassPath.kt:660-664 | there is one class per plugin accessor, the k-th being the implementation class of the k-th plugin accessor, so order and repetitions are kept; a class is exposed if and only if some plugin accessor has it |
| PluginAccessors.PluginGroupTypeName | subprojects/kotlin-dsl/src/main/kotlin/org/gradle/kotlin/dsl/accessors/PluginAccessorsClassPath.kt:831-833 | the name ends with `PluginGroup`, preceded by the path's segments run together, each with its first character upper-cased |
| PluginAccessors.GroupTypeNameExample | subprojects/kotlin-dsl/src/main/kotlin/org/gradle/kotlin/dsl/accessors/PluginAccessorsClassPath.kt:831-833 | `org`, `gradle` gives `OrgGradlePluginGroup` |
| PluginAccessors.TypeSpecForPluginGroupType | subprojects/kotlin-dsl/src/main/kotlin/org/gradle/kotlin/dsl/accessors/PluginAccessorsClassPath.kt:790-792 | the source name is the group type, and the internal name is the DSL package path, `/`, and the group type |
| PluginAccessors.PluginDependenciesSpecOf | subprojects/kotlin-dsl/src/main/kotlin/org/gradle/kotlin/dsl/accessors/PluginAccessorsClassPath.kt:671-674 | the reference is `this` if and only if the type is `PluginDependenciesSpec`, and `plugins` otherwise |
| PluginAccessors.AccessorsAreWellShaped | subprojects/kotlin-dsl/src/main/kotlin/org/gradle/kotlin/dsl/accessors/PluginAccessorsClassPath.kt:758-787 | each accessor's receiver is the given type or a group type; a plugin accessor returns `PluginDependencySpec`; a group accessor returns a group type |
| PluginAccessors.GroupPrecedesChildren | subprojects/kotlin-dsl/src/main/kotlin/org/gradle/kotlin/dsl/accessors/PluginAccessorsClassPath.kt:763-773 | a group yields its accessor, with the path joined by `.` as id, then its children's accessors with the group type as receiver, then the following entries' accessors |
| PluginAccessors.PluginLeafAccessor | subprojects/kotlin-dsl/src/main/kotlin/org/gradle/kotlin/dsl/accessors/PluginAccessorsClassPath.kt:776-783 | a plugin leaf yields exactly one accessor with its id, its class and a `PluginDependencySpec` return type, before the following entries' accessors |
| PluginAccessors.PluginsReferenceFollowsReceiver | subprojects/kotlin-dsl/src/main/kotlin/org/gradle/kotlin/dsl/accessors/PluginAccessorsClassPath.kt:671-674 | for accessors generated from the default receiver, the plugins block is `this` exactly for top-level accessors |
| LocalConfiguration.Create | subprojects/dependency-management/src/main/java/org/gradle/internal/component/local/model/DefaultLocalConfigurationMetadata.java:95-119 | every field but the hierarchy is stored as given: name, description, flags, attributes, capabilities, the defined and aggregated lists and the source artifacts; the hierarchy becomes a set in first-occurrence order and is unchanged if already distinct; the artifact cell starts uncomputed |
| LocalConfiguration.DedupKeepsFirstOccurrences | subprojects/dependency-management/src/main/java/org/gradle/internal/component/local/model/DefaultLocalConfigurationMetadata.java:124-136 | filling an insertion-ordered set keeps exactly the first occurrence of each element, in order |
| LocalConfiguration.InheritedFrom | subprojects/dependency-management/src/main/java/org/gradle/internal/component/local/model/DefaultLocalConfigurationMetadata.java:129-132 | the inherited-from members are the hierarchy members other than the configuration itself |
| LocalConfiguration.CollectArtifacts | subprojects/dependency-management/src/main/java/org/gradle/internal/component/local/model/DefaultLocalConfigurationMetadata.java:119-139 | the list has no duplicates; with no own artifacts and an empty hierarchy it is empty; whenever the hierarchy is non-empty or nothing is inherited, it holds exactly the own and the inherited artifacts |
| LocalConfiguration.OwnArtifactsComeFirst | subprojects/dependency-management/src/main/java/org/gradle/internal/component/local/model/DefaultLocalConfigurationMetadata.java:124-128 | the de-duplicated own artifacts head the list, in declaration order |
| LocalConfiguration.CollectedArtifactsAreFirstOccurrences | subprojects/dependency-management/src/main/java/org/gradle/internal/component/local/model/DefaultLocalConfigurationMetadata.java:124-136 | whenever there are own artifacts or a non-empty hierarchy, the list is the first occurrences of the own artifacts followed by the inherited lists in hierarchy order |
| LocalConfiguration.NothingDeclaredNoArtifacts | subprojects/dependency-management/src/main/java/org/gradle/internal/component/local/model/DefaultLocalConfigurationMetadata.java:120-121 | with no own artifacts and an empty hierarchy the list is empty |
| LocalConfiguration.IsExternalVariant | subprojects/dependency-management/src/main/java/org/gradle/internal/component/local/model/DefaultLocalConfigurationMetadata.java:263-266 | a local configuration is never an external variant |
| LocalConfiguration.GetArtifacts | subprojects/dependency-management/src/main/java/org/gradle/internal/component/local/model/DefaultLocalConfigurationMetadata.java:282-285 | the list is available exactly when the cell is computed and is its content; a failed cell gives its failure |
| LocalConfiguration.FindByName | subprojects/dependency-management/src/main/java/org/gradle/internal/component/local/model/DefaultLocalConfigurationMetadata.java:289-293 | nothing is found exactly when no artifact has the name; otherwise the first artifact with that name is found |
| LocalConfiguration.Artifact | subprojects/dependency-management/src/main/java/org/gradle/internal/component/local/model/DefaultLocalConfigurationMetadata.java:287-296 | with a computed list, the result is the artifact at the first index carrying the requested name, or, when none has it, the placeholder for the component and name; it fails only when the list is not computed |
| LocalConfiguration.Transform | subprojects/dependency-management/src/main/java/org/gradle/internal/component/local/model/DefaultLocalComponentMetadata.java:116-118 | an artifact already in the memo gets its stored result and changes nothing; a new one invokes the transformer once, and its answer is recorded; the memo stays valid |
| LocalConfiguration.TransformAll | subprojects/dependency-management/src/main/java/org/gradle/internal/component/local/model/DefaultLocalConfigurationMetadata.java:164-168 | each element maps to the memo's entry for it, the memo only grows and stays valid, and it gains exactly the elements seen |
| LocalConfiguration.CopyVariants | subprojects/dependency-management/src/main/java/org/gradle/internal/component/local/model/DefaultLocalConfigurationMetadata.java:144-155 | each variant is rebuilt with the same name, identifier, attributes and capabilities, and its artifacts mapped through the memo |
| LocalConfiguration.Copy | subprojects/dependency-management/src/main/java/org/gradle/internal/component/local/model/DefaultLocalConfigurationMetadata.java:142-171 | a copy exists exactly when the artifacts are computed; it keeps the declaration, maps every variant and the artifact list element by element through the memo, in order, and keeps the memo valid; an uncomputed cell is not computed here but by LocalComponent.CopyOne beforehand |
| LocalConfiguration.CopyMapsEqualArtifactsAlike | subprojects/dependency-management/src/main/java/org/gradle/internal/component/local/model/DefaultLocalConfigurationMetadata.java:164-168 | equal artifacts of the list map to equal copies, whatever the transformer does |
| LocalComponent.Register | subprojects/dependency-management/src/main/java/org/gradle/internal/component/local/model/DefaultLocalComponentMetadata.java:78-85 | the name gets an unrealised entry and the configuration's flag; other entries and flags, the id and the traversal cache are unchanged; a known name keeps its position and a new one goes last |
| LocalComponent.Add | subprojects/dependency-management/src/main/java/org/gradle/internal/component/local/model/DefaultLocalComponentMetadata.java:93-97 | the configuration is returned and bound, unrealised, to its name with its flag; other entries and flags, the id and the traversal cache are unchanged; a known name keeps its position and a new one goes last |
| LocalComponent.ConfigurationNames | subprojects/dependency-management/src/main/java/org/gradle/internal/component/local/model/DefaultLocalComponentMetadata.java:73-76 | the names are distinct and are exactly the registered ones |
| LocalComponent.GetConfiguration | subprojects/dependency-management/src/main/java/org/gradle/internal/component/local/model/DefaultLocalComponentMetadata.java:99-106 | nothing is returned exactly for an unknown name, which changes nothing; otherwise the entry's configuration is returned and the entry is now realised, all else unchanged |
| LocalComponent.IsConfigurationRealized | subprojects/dependency-management/src/main/java/org/gradle/internal/component/local/model/DefaultLocalComponentMetadata.java:223-226 | there is an answer exactly for a registered name, and it is whether its entry is realised |
| LocalComponent.AddThenGet | subprojects/dependency-management/src/main/java/org/gradle/internal/component/local/model/DefaultLocalComponentMetadata.java:93-106 | looking up an added configuration gives it back, and it is then realised |
| LocalComponent.RegisterThenGet | subprojects/dependency-management/src/main/java/org/gradle/internal/component/local/model/DefaultLocalComponentMetadata.java:78-106 | a registered name is unrealised; looking it up gives the built configuration and realises it |
| LocalComponent.RegisterOverwrites | subprojects/dependency-management/src/main/java/org/gradle/internal/component/local/model/DefaultLocalComponentMetadata.java:78-85 | registering a name twice keeps its first position and the second entry and flag |
| LocalComponent.Force | subprojects/dependency-management/src/main/java/org/gradle/internal/component/local/model/DefaultLocalComponentMetadata.java:99-106 | forcing an unknown name fails and changes nothing; otherwise the entry ends settled and the answer is its cell; a failure comes from an unknown name, a cycle, or a stored failure, and a newly failed computation from a hierarchy member that is unknown, on the cycle, or failed; a newly computed list is the own artifacts followed by the hierarchy members' lists |
| LocalComponent.Compute | subprojects/dependency-management/src/main/java/org/gradle/internal/component/local/model/DefaultLocalConfigurationMetadata.java:119-139 | the cell is computed and stored, the answer is the stored cell, and a list is the collected own and inherited artifacts; it fails only when some other hierarchy member is unknown, is being computed further up, or holds a failure |
| LocalComponent.ForceAll | subprojects/dependency-management/src/main/java/org/gradle/internal/component/local/model/DefaultLocalConfigurationMetadata.java:129-135 | on success there is one list per hierarchy member, in order, each the member's stored computed list; on failure some member is unknown, is being computed further up, or holds a failure |
| LocalComponent.PrepareToResolveArtifacts | subprojects/dependency-management/src/main/java/org/gradle/internal/component/local/model/DefaultLocalConfigurationMetadata.java:273-285 | an unknown name fails and changes nothing; a known one ends realised and settled and the answer is its cell; a newly computed cell fails only when another hierarchy member is unknown, is on a cycle through this one, or holds a failure; only cells and realisation change |
| LocalComponent.PrepareIsIdempotent | subprojects/dependency-management/src/main/java/org/gradle/internal/component/local/model/DefaultLocalConfigurationMetadata.java:273-280 | preparing again gives the same answer and changes nothing: the cell is computed at most once |
| LocalComponent.PreparedArtifactsFollowHierarchy | subprojects/dependency-management/src/main/java/org/gradle/internal/component/local/model/DefaultLocalConfigurationMetadata.java:122-137 | a newly computed list is the own artifacts followed by the computed lists of the other hierarchy members, each artifact once |
| LocalComponent.NothingDeclaredPreparesEmpty | subprojects/dependency-management/src/main/java/org/gradle/internal/component/local/model/DefaultLocalConfigurationMetadata.java:120-121 | with no own artifacts and an empty hierarchy, preparing gives the empty list |
| LocalComponent.CollectTraversal | subprojects/dependency-management/src/main/java/org/gradle/internal/component/local/model/DefaultLocalComponentMetadata.java:188-195 | the walk gives the consumable configurations with attributes, realises exactly the consumable entries, and changes no configuration |
| LocalComponent.VariantsForGraphTraversal | subprojects/dependency-management/src/main/java/org/gradle/internal/component/local/model/DefaultLocalComponentMetadata.java:184-201 | the first call computes and caches the qualifying configurations in registration order, or nothing when none qualify; later calls return the cache; non-consumable entries are never realised |
| LocalComponent.TraversalCandidatesQualify | subprojects/dependency-management/src/main/java/org/gradle/internal/component/local/model/DefaultLocalComponentMetadata.java:188-195 | a configuration is a candidate if and only if it is consumable and has attributes |
| LocalComponent.TraversalIsComputedOnce | subprojects/dependency-management/src/main/java/org/gradle/internal/component/local/model/DefaultLocalComponentMetadata.java:185-200 | a registration after the first call does not change the traversal list, and asking again changes nothing |
| LocalComponent.CopyOne | subprojects/dependency-management/src/main/java/org/gradle/internal/component/local/model/DefaultLocalComponentMetadata.java:122-123 | the source configuration ends settled; a copy exists exactly when its artifacts are computed, and then keeps its declaration and maps its artifact list and every variant's artifacts, element by element, through the returned memo, which only grows and stays valid |
| LocalComponent.Copy | subprojects/dependency-management/src/main/java/org/gradle/internal/component/local/model/DefaultLocalComponentMetadata.java:111-129 | the copy has the new id, the same names in order and no traversal cache; every configuration is copied through the one returned memo, keeping its declaration and flag and mapping its list and variants element by element; the memo is valid; every source configuration ends realised and settled; the copy fails only when some configuration's artifacts ended in a failure |
| LocalComponent.CopyKeepsDeclarations | subprojects/dependency-management/src/main/java/org/gradle/internal/component/local/model/DefaultLocalComponentMetadata.java:122-126 | every copied entry is an eager entry whose declaration is the source's |
| LocalComponent.CopyKeepsFlags | subprojects/dependency-management/src/main/java/org/gradle/internal/component/local/model/DefaultLocalComponentMetadata.java:122-126 | when the flags agree with the configurations, the copy has the same consumable flags |
| LocalComponent.ImageAt | subprojects/dependency-management/src/main/java/org/gradle/internal/component/local/model/DefaultLocalComponentMetadata.java:115-126 | in a copy, the artifact at any place of a copied configuration is the memo's image of the original artifact there |
| LocalComponent.CopyMapsEqualArtifactsAlike | subprojects/dependency-management/src/main/java/org/gradle/internal/component/local/model/DefaultLocalComponentMetadata.java:111-129 | an artifact that occurs at two places, in the lists or variants of the same or different configurations, is copied to the same artifact at both, whatever the transformer does |
| LocalComponent.RegisterKeepsFlagsAgreeing | subprojects/dependency-management/src/main/java/org/gradle/internal/component/local/model/DefaultLocalComponentMetadata.java:78-85 | registering a faithfully built configuration keeps the flags in agreement |
| LocalComponent.AddKeepsFlagsAgreeing | subprojects/dependency-management/src/main/java/org/gradle/internal/component/local/model/DefaultLocalComponentMetadata.java:93-97 | adding a configuration keeps the flags in agreement |
| LocalComponent.ReregisterAll | subprojects/dependency-management/src/main/java/org/gradle/internal/component/local/model/DefaultLocalComponentMetadata.java:218-220 | it fails exactly when some name is not found; when every name is found under its own name, the names keep their order, each gets an unrealised entry from the provider, and other entries are unchanged |
| LocalComponent.Reevaluate | subprojects/dependency-management/src/main/java/org/gradle/internal/component/local/model/DefaultLocalComponentMetadata.java:215-221 | it fails exactly when the provider misses a registered name |
| LocalComponent.ReevaluateUnrealizesAll | subprojects/dependency-management/src/main/java/org/gradle/internal/component/local/model/DefaultLocalComponentMetadata.java:215-221 | with a provider that answers every name, the names keep their order and every configuration is unrealised |

## Left out

- File reading, the include push into the document reader, and the assembly of the sample block: these are I/O around the modelled text functions. The platform newline of `trimIndent` is a parameter.
- Regular expressions are modelled by predicates over the characters the patterns name. Java's `\s` in marker lines is the six ASCII whitespace characters.
- Locking, `synchronized`, `Lazy.locking()` and `model.fromMutableState` are not modelled. Each model operation runs alone.
- The configuration-metadata builder is not part of this model. The configuration it builds is carried in `RawConfiguration.built`, and `FaithfullyBuilt` states that it kept the flag.
- Variants' own lazy artifact cells are not modelled. A variant holds its resolved artifacts, so `prepareToResolveArtifacts` does nothing for variants.
- A hierarchy member that is not registered makes the source throw a null dereference when the cell is computed. A re-entrant computation, which comes from a cycle in the hierarchy, fails in the cell container. Both are modelled as a failure stored in the cell.
- LocalConfiguration.Copy: the source's `copy` calls `prepareToResolveArtifacts()` itself (DefaultLocalConfigurationMetadata.java:165); computing a cell needs the owning component, so the model computes it in LocalComponent.CopyOne before copying, and LocalConfiguration.Copy answers `Err` on an uncomputed cell.
- LocalComponent.IsConfigurationRealized: for an unregistered name the source dereferences a missing entry and throws a null dereference; the model answers `None`, so a caller cannot mistake it for either boolean.
- LocalComponent.Reevaluate: when a name is missing, the source has already re-registered the names before it; the model returns only the error.
- The artifact transformer is a function of the artifact and the number of earlier invocations. This stands for a transformer with hidden state.
- The traversal cache holds the configurations as values. The source holds references to the realised objects.
- The id of an `ImmutableCapability`, and of any other capability implementation the shadow may wrap, is modelled as group, `:` and name. Those classes are not part of this model, so `Capabilities.Snapshot` keeps the id only because of this choice.
- Capabilities.Shadow: the code stores an already shadowed input as it is, so the wrapped capability can itself be a shadow.
- The transformer memo is keyed by artifact equality, like the source's `HashMap`.
- `KotlinDslPackagePath` is a constant. Bytecode and source emission, Kotlin metadata, file output and jar scanning are not modelled. The tree comes in as input.
- PluginAccessors.PluginGroupTypeName: upper-casing is modelled for `a`..`z` only. Kotlin's `uppercaseFirstChar` upper-cases any letter.
- DistributionLocator.Distribution: the location is a string. The source's URI parsing can throw on a malformed location, and that path is not modelled.
- `preventFromFurtherMutation` on registration is not modelled.

## Findings

| source | as written | input that shows it | evidently intended | confidence | as-written member | corrected member |
|---|---|---|---|---|---|---|
| subprojects/docs-asciidoctor-extensions-base/src/main/java/org/gradle/docs/asciidoctor/SampleIncludeProcessor.java:196-199 | `getMinIndent` skips a line made only of whitespace that `trim()` keeps, such as U+2000, because its indent equals its length. `trimIndent` then calls `substring(minIndent)` on that line, which is shorter than the indentation and throws. | the source `"  x\n\u2000"`: the least indentation is 2, and the second line has length 1 | a line too short for the indentation, which can only be whitespace, becomes empty; every other line is cut as written | not executed | SampleInclude.TrimIndentAsWritten (failure shown by SampleInclude.WhitespaceOnlyLineBreaksTrimIndent) | SampleInclude.TrimIndent (its contract, SampleInclude.WhitespaceOnlyLineBecomesEmpty and SampleInclude.TrimmedIndentation) |

=== FILE: capability.dfy ===
/**
  Capabilities and their shadowed form (ImmutableShadowedCapability).

  A capability is a (group, name, version) identity. The model distinguishes the
  three kinds of value the shadow constructor can be handed: an immutable
  capability, an already shadowed capability, and any other (possibly mutable)
  implementation of the capability interface.
 */
module Capabilities {

  datatype Capability =
    | Immutable(group: string, name: string, version: string)
      /** Any other implementation, e.g. a mutable capability still being configured. */
    | Other(ogroup: string, oname: string, oversion: string)
    | Shadowed(shadowed: Capability, appendix: string)

  function Group(c: Capability): string {
    match c
    case Immutable(g, _, _) => g
    case Other(g, _, _) => g
    case Shadowed(s, _) => Group(s)
  }

  function Name(c: Capability): string {
    match c
    case Immutable(_, n, _) => n
    case Other(_, n, _) => n
    case Shadowed(s, a) => Name(s) + a
  }

  function Version(c: Capability): string {
    match c
    case Immutable(_, _, v) => v
    case Other(_, _, v) => v
    case Shadowed(s, _) => Version(s)
  }

  /** Identifier of a plain capability: group and name separated by a colon. */
  function PlainId(group: string, name: string): string {
    group + ":" + name
  }

  function CapabilityId(c: Capability): string {
    match c
    case Immutable(g, n, _) => PlainId(g, n)
    case Other(g, n, _) => PlainId(g, n)
    case Shadowed(s, a) => CapabilityId(s) + a
  }

  /** A value is deeply immutable when no `Other` occurs anywhere in it. */
  predicate DeeplyImmutable(c: Capability) {
    match c
    case Immutable(_, _, _) => true
    case Other(_, _, _) => false
    case Shadowed(s, _) => DeeplyImmutable(s)
  }

  /** The normalisation the shadow constructor applies to the capability it wraps. */
  function Snapshot(c: Capability): (r: Capability)
    ensures !r.Other?
    ensures Group(r) == Group(c) && Name(r) == Name(c) && Version(r) == Version(c)
    ensures CapabilityId(r) == CapabilityId(c)
    ensures c.Immutable? || c.Shadowed? ==> r == c
    ensures c.Other? ==> r == Immutable(c.ogroup, c.oname, c.oversion)
  {
    if c.Shadowed? || c.Immutable? then c
    else Immutable(Group(c), Name(c), Version(c))
  }

  /** The constructor `new ImmutableShadowedCapability(c, appendix)`. */
  function Shadow(c: Capability, appendix: string): (r: Capability)
    ensures r.Shadowed? && r.appendix == appendix
    ensures !r.shadowed.Other?
    ensures DeeplyImmutable(c) ==> DeeplyImmutable(r)
    ensures c.Other? ==> DeeplyImmutable(r)
  {
    Shadowed(Snapshot(c), appendix)
  }

  lemma ShadowKeepsGroupAndVersion(c: Capability, appendix: string)
    ensures Group(Shadow(c, appendix)) == Group(c)
    ensures Version(Shadow(c, appendix)) == Version(c)
  {
  }

  lemma ShadowAppendsToName(c: Capability, appendix: string)
    ensures Name(Shadow(c, appendix)) == Name(c) + appendix
  {
  }

  lemma ShadowAppendsToId(c: Capability, appendix: string)
    ensures CapabilityId(Shadow(c, appendix)) == CapabilityId(c) + appendix
  {
  }

  /** An immutable or already shadowed capability is stored as it is. */
  lemma ShadowKeepsImmutableInput(c: Capability, appendix: string)
    requires c.Immutable? || c.Shadowed?
    ensures Shadow(c, appendix).shadowed == c
  {
  }

  /**
    Any other capability is replaced by a fresh immutable copy of its group, name
    and version: two inputs that agree on those three give the same shadow, so
    nothing else about the input (its later state included) is retained.
   */
  lemma ShadowSnapshotsOtherInput(c: Capability, d: Capability, appendix: string)
    requires c.Other? && d.Other?
    requires Group(c) == Group(d) && Name(c) == Name(d) && Version(c) == Version(d)
    ensures Shadow(c, appendix).shadowed == Immutable(Group(c), Name(c), Version(c))
    ensures Shadow(c, appendix) == Shadow(d, appendix)
  {
  }

  /** Shadowing a shadow nests rather than flattens. */
  lemma NestedShadow(c: Capability, x: string, y: string)
    ensures Name(Shadow(Shadow(c, x), y)) == Name(c) + x + y
    ensures CapabilityId(Shadow(Shadow(c, x), y)) == CapabilityId(c) + x + y
    ensures Shadow(Shadow(c, x), y).shadowed == Shadow(c, x)
  {
    ShadowAppendsToName(c, x);
    ShadowAppendsToName(Shadow(c, x), y);
    ShadowAppendsToId(c, x);
    ShadowAppendsToId(Shadow(c, x), y);
  }
}

=== FILE: distribution.dfy ===
/** Download locations of the build tool's distributions (DistributionLocator). */
module DistributionLocator {

  /** A version of the build tool: its version string and whether it is a snapshot. */
  datatype ToolVersion = ToolVersion(version: string, isSnapshot: bool)

  const ServicesBaseUrl: string := "https://services.gradle.org"
  const ReleaseRepository: string := ServicesBaseUrl + "/distributions"
  const SnapshotRepository: string := ServicesBaseUrl + "/distributions-snapshots"

  predicate IsPrefix(p: string, s: string) {
    |p| <= |s| && s[..|p|] == p
  }

  predicate IsSuffix(p: string, s: string) {
    |p| <= |s| && s[|s| - |p|..] == p
  }

  function DistributionRepository(v: ToolVersion): string {
    if v.isSnapshot then SnapshotRepository else ReleaseRepository
  }

  /** The location string for an archive in a repository. */
  function Distribution(repositoryUrl: string, v: ToolVersion, archiveName: string, archiveClassifier: string): (r: string)
    ensures IsPrefix(repositoryUrl + "/", r)
    ensures IsSuffix(".zip", r)
  {
    repositoryUrl + "/" + archiveName + "-" + v.version + "-" + archiveClassifier + ".zip"
  }

  lemma PrefixOfConcat(p: string, a: string, b: string)
    requires IsPrefix(p, a)
    ensures IsPrefix(p, a + b)
  {
    assert (a + b)[..|p|] == a[..|p|];
  }

  lemma RepositoriesUnderServicesBase()
    ensures IsPrefix(ServicesBaseUrl, ReleaseRepository)
    ensures IsPrefix(ServicesBaseUrl, SnapshotRepository)
  {
    PrefixOfConcat(ServicesBaseUrl, ServicesBaseUrl, "/distributions");
    PrefixOfConcat(ServicesBaseUrl, ServicesBaseUrl, "/distributions-snapshots");
  }

  function DistributionFor(v: ToolVersion, distributionType: string): (r: string)
    ensures IsPrefix(ServicesBaseUrl, r)
    ensures IsSuffix(".zip", r)
    ensures r == DistributionRepository(v) + "/gradle-" + v.version + "-" + distributionType + ".zip"
  {
    var repo := DistributionRepository(v);
    var r := Distribution(repo, v, "gradle", distributionType);
    RepositoriesUnderServicesBase();
    PrefixOfConcat(ServicesBaseUrl, repo, r[|repo|..]);
    assert repo + r[|repo|..] == r;
    r
  }

  /** The one-argument overload: the binary-only distribution. */
  function DefaultDistributionFor(v: ToolVersion): (r: string)
    ensures IsSuffix("-bin.zip", r)
    ensures r == DistributionRepository(v) + "/gradle-" + v.version + "-bin.zip"
  {
    var stem := DistributionRepository(v) + "/gradle-" + v.version;
    BinArchive(stem);
    SuffixOfConcat(stem, "-bin.zip");
    DistributionFor(v, "bin")
  }

  lemma BinArchive(stem: string)
    ensures stem + "-" + "bin" + ".zip" == stem + "-bin.zip"
  {
    assert "-" + "bin" + ".zip" == "-bin.zip";
  }

  lemma SuffixOfConcat(a: string, p: string)
    ensures IsSuffix(p, a + p)
  {
    assert (a + p)[|a|..] == p;
  }

  /** A location points into the snapshot repository. */
  predicate InSnapshotRepository(url: string) {
    IsPrefix(SnapshotRepository + "/", url)
  }

  /** The repository chosen is recoverable from the location: snapshot iff snapshot version. */
  lemma SnapshotLocationIffSnapshotVersion(v: ToolVersion, distributionType: string)
    ensures InSnapshotRepository(DistributionFor(v, distributionType)) <==> v.isSnapshot
  {
    var r := DistributionFor(v, distributionType);
    if !v.isSnapshot {
      var k := |ReleaseRepository|;
      assert r[k] == '/';
      assert (SnapshotRepository + "/")[k] == '-';
    } else {
      assert r[..|SnapshotRepository + "/"|] == SnapshotRepository + "/";
    }
  }
}

=== FILE: local_component.dfy ===
/**
  The metadata of a local component (DefaultLocalComponentMetadata): an
  insertion-ordered registry from configuration name to a lazily built configuration,
  the eager "can be consumed" flag of every name, the once-computed list of variants
  for graph traversal, artifact resolution across the configuration hierarchy, a deep
  copy under one memoised artifact transformer, and re-evaluation.

  Laziness is explicit: an entry is unrealised (it knows how to build its
  configuration) or realised (it holds the configuration).
 */
module LocalComponent {
  import opened Wrappers
  import Conf = LocalConfiguration

  /**
    A configuration of the build model, as far as this registry sees it: its name,
    its flag, and the metadata the configuration-metadata builder makes of it.
   */
  datatype RawConfiguration = RawConfiguration(name: string, canBeConsumed: bool, built: Conf.Configuration)

  datatype Source = FromRaw(raw: RawConfiguration) | Eager(conf: Conf.Configuration)

  datatype Entry = Unrealized(source: Source) | Realized(conf: Conf.Configuration)

  datatype Component = Component(
    id: string,
    names: seq<string>,
    entries: map<string, Entry>,
    consumable: map<string, bool>,
    traversal: Option<Option<seq<Conf.Configuration>>>)

  /** Both maps have the same keys, and `names` lists them once each in insertion order. */
  ghost predicate Valid(c: Component) {
    && Conf.Distinct(c.names)
    && (forall n :: n in c.names <==> n in c.entries)
    && (forall n :: n in c.entries <==> n in c.consumable)
  }

  function Empty(id: string): (r: Component)
    ensures Valid(r) && r.names == []
  {
    Component(id, [], map[], map[], None)
  }

  /** The configuration an entry stands for, realised or not. */
  function View(e: Entry): Conf.Configuration {
    match e
    case Realized(conf) => conf
    case Unrealized(Eager(conf)) => conf
    case Unrealized(FromRaw(raw)) => raw.built
  }

  /** A realised entry whose artifacts are computed or failed: forcing it again changes nothing. */
  predicate Settled(e: Entry) {
    e.Realized? && !e.conf.artifacts.Pending?
  }

  // ---------------------------------------------------------------------------
  // Registration and lookup
  // ---------------------------------------------------------------------------

  /** `put` on both linked maps: a known name keeps its position, a new one goes last. */
  function Put(c: Component, name: string, canBeConsumed: bool, e: Entry): (r: Component)
    ensures Valid(c) ==> Valid(r)
    ensures r.names == (if name in c.names then c.names else c.names + [name])
    ensures r.entries == c.entries[name := e] && r.consumable == c.consumable[name := canBeConsumed]
    ensures r.id == c.id && r.traversal == c.traversal
  {
    var names := if name in c.names then c.names else c.names + [name];
    assert Conf.Distinct(c.names) ==> Conf.Distinct(names);
    Component(c.id, names, c.entries[name := e], c.consumable[name := canBeConsumed], c.traversal)
  }

  /** `registerConfiguration`: the name is bound to an unrealised entry built on demand. */
  function Register(c: Component, raw: RawConfiguration): (r: Component)
    ensures Valid(c) ==> Valid(r)
    ensures raw.name in r.entries && !r.entries[raw.name].Realized?
    ensures r.consumable == c.consumable[raw.name := raw.canBeConsumed]
    ensures forall n | n in c.entries && n != raw.name :: n in r.entries && r.entries[n] == c.entries[n]
    ensures r.id == c.id && r.traversal == c.traversal
    ensures raw.name in c.names ==> r.names == c.names
    ensures raw.name !in c.names ==> r.names == c.names + [raw.name]
  {
    Put(c, raw.name, raw.canBeConsumed, Unrealized(FromRaw(raw)))
  }

  /** `addConfiguration`: binds the name to the given metadata and returns it. */
  function Add(c: Component, conf: Conf.Configuration): (r: (Conf.Configuration, Component))
    ensures r.0 == conf
    ensures Valid(c) ==> Valid(r.1)
    ensures conf.declaration.name in r.1.entries && r.1.entries[conf.declaration.name] == Unrealized(Eager(conf))
    ensures r.1.consumable == c.consumable[conf.declaration.name := conf.declaration.canBeConsumed]
    ensures forall n | n in c.entries && n != conf.declaration.name :: n in r.1.entries && r.1.entries[n] == c.entries[n]
    ensures r.1.id == c.id && r.1.traversal == c.traversal
    ensures conf.declaration.name in c.names ==> r.1.names == c.names
    ensures conf.declaration.name !in c.names ==> r.1.names == c.names + [conf.declaration.name]
  {
    (conf, Put(c, conf.declaration.name, conf.declaration.canBeConsumed, Unrealized(Eager(conf))))
  }

  /** `getConfigurationNames`: the registered names in insertion order. */
  function ConfigurationNames(c: Component): (r: seq<string>)
    requires Valid(c)
    ensures Conf.Distinct(r) && forall n :: n in r <==> n in c.entries
  {
    c.names
  }

  /** Realises the entry of `n` and returns its configuration. */
  function Realize(c: Component, n: string): (r: (Conf.Configuration, Component))
    requires n in c.entries
    ensures r.0 == View(c.entries[n])
    ensures r.1 == c.(entries := c.entries[n := Realized(r.0)])
  {
    var conf := View(c.entries[n]);
    (conf, c.(entries := c.entries[n := Realized(conf)]))
  }

  /** `getConfiguration`: nothing for an unknown name; otherwise the entry, now realised. */
  function GetConfiguration(c: Component, n: string): (r: (Option<Conf.Configuration>, Component))
    ensures r.0.None? <==> n !in c.entries
    ensures r.0.None? ==> r.1 == c
    ensures r.0.Some? ==> r.0.value == View(c.entries[n]) && n in r.1.entries && r.1.entries[n] == Realized(r.0.value)
    ensures r.1.names == c.names && r.1.consumable == c.consumable && r.1.entries.Keys == c.entries.Keys
    ensures forall m | m in c.entries && m != n :: r.1.entries[m] == c.entries[m]
    ensures Valid(c) ==> Valid(r.1)
  {
    if n !in c.entries then (None, c)
    else
      var (conf, d) := Realize(c, n);
      (Some(conf), d)
  }

  /** `isConfigurationRealized`; an unknown name has no entry to ask (the source dereferences null). */
  function IsConfigurationRealized(c: Component, n: string): (r: Option<bool>)
    ensures r.None? <==> n !in c.entries
    ensures r.Some? ==> (r.value <==> c.entries[n].Realized?)
  {
    if n in c.entries then Some(c.entries[n].Realized?) else None
  }

  /** Adding a configuration and looking its name up gives it back, realised. */
  lemma AddThenGet(c: Component, conf: Conf.Configuration)
    ensures var d := Add(c, conf).1;
      var (found, e) := GetConfiguration(d, conf.declaration.name);
      found == Some(conf) && IsConfigurationRealized(e, conf.declaration.name) == Some(true)
  {
  }

  /** A registered name is unrealised until it is looked up, and realised afterwards. */
  lemma RegisterThenGet(c: Component, raw: RawConfiguration)
    ensures var d := Register(c, raw);
      && IsConfigurationRealized(d, raw.name) == Some(false)
      && var (found, e) := GetConfiguration(d, raw.name);
      found == Some(raw.built) && IsConfigurationRealized(e, raw.name) == Some(true)
  {
  }

  /** Registering a name twice keeps its first position and the last entry and flag. */
  lemma RegisterOverwrites(c: Component, first: RawConfiguration, second: RawConfiguration)
    requires first.name == second.name
    ensures var d := Register(Register(c, first), second);
      && d.names == Register(c, first).names
      && d.entries[second.name] == Unrealized(FromRaw(second))
      && d.consumable[second.name] == second.canBeConsumed
  {
  }

  // ---------------------------------------------------------------------------
  // Artifact resolution across the hierarchy
  // ---------------------------------------------------------------------------

  /** The computed artifact list of `n` in `c`, or nothing when there is none. */
  function ResolvedList(c: Component, n: string): seq<Conf.LocalArtifact> {
    if n in c.entries && c.entries[n].Realized? && c.entries[n].conf.artifacts.Resolved?
    then c.entries[n].conf.artifacts.artifacts
    else []
  }

  function ResolvedLists(c: Component, names: seq<string>): (r: seq<seq<Conf.LocalArtifact>>)
    ensures |r| == |names| && forall i | 0 <= i < |names| :: r[i] == ResolvedList(c, names[i])
  {
    seq(|names|, i requires 0 <= i < |names| => ResolvedList(c, names[i]))
  }

  /**
    How resolution may change a component: only artifact cells and realisation
    change; a realised entry stays realised and a settled one stays as it is.
   */
  ghost predicate Evolves(c: Component, d: Component) {
    && d.id == c.id && d.names == c.names && d.consumable == c.consumable
    && d.traversal == c.traversal && d.entries.Keys == c.entries.Keys
    && KeepsDeclarations(c, d)
    && (forall m | m in c.entries && Settled(c.entries[m]) :: d.entries[m] == c.entries[m])
    && (forall m | m in c.entries && c.entries[m].Realized? :: d.entries[m].Realized?)
  }

  /** Every entry still stands for a configuration with the same declaration. */
  ghost predicate KeepsDeclarations(c: Component, d: Component) {
    forall m | m in c.entries && m in d.entries :: DeclarationOf(d.entries[m]) == DeclarationOf(c.entries[m])
  }

  function DeclarationOf(e: Entry): Conf.Declaration {
    View(e).declaration
  }

  /** The realised entries of the configurations being computed are left alone. */
  ghost predicate KeepsVisiting(c: Component, d: Component, visiting: set<string>) {
    forall m | m in visiting && m in c.entries && c.entries[m].Realized? :: m in d.entries && d.entries[m] == c.entries[m]
  }

  lemma EvolvesTransitive(c: Component, d: Component, e: Component)
    requires Evolves(c, d) && Evolves(d, e)
    ensures Evolves(c, e)
  {
  }

  /** The resolved cell of `n` in `d` holds `artifacts`. */
  predicate HoldsResolved(d: Component, n: string, artifacts: seq<Conf.LocalArtifact>) {
    n in d.entries && Settled(d.entries[n]) && d.entries[n].conf.artifacts == Conf.Resolved(artifacts)
  }

  /**
    A hierarchy member that makes computing a cell fail: it is not registered, it is
    being computed further up (a cycle), or its own cell holds a failure.
   */
  predicate Blocks(d: Component, p: string, visiting: set<string>) {
    p !in d.entries || p in visiting || (d.entries[p].Realized? && d.entries[p].conf.artifacts.Failed?)
  }

  /**
    `prepareToResolveArtifacts` then `getArtifacts` on configuration `n`: realises it
    and, if its cell is not yet computed, computes it. A name that is not registered
    fails, and so does a configuration whose cell is being computed further up (a
    cycle in the hierarchy).
   */
  function Force(c: Component, n: string, visiting: set<string>)
    : (r: (Result<seq<Conf.LocalArtifact>, string>, Component))
    ensures Evolves(c, r.1) && KeepsVisiting(c, r.1, visiting)
    ensures n !in c.entries ==> r.0.Err? && r.1 == c
    ensures r.0.Ok? ==> HoldsResolved(r.1, n, r.0.value)
    ensures r.0.Err? ==> Blocks(r.1, n, visiting)
    ensures n in c.entries && n !in visiting ==>
      Settled(r.1.entries[n]) && r.0 == Conf.GetArtifacts(r.1.entries[n].conf)
    ensures n in c.entries && n !in visiting && View(c.entries[n]).artifacts.Pending? && r.0.Err? ==>
      exists p | p in Conf.InheritedFrom(View(c.entries[n])) :: Blocks(r.1, p, visiting + {n})
    ensures n in c.entries && n !in visiting && r.0.Ok? && View(c.entries[n]).artifacts.Pending? ==>
      var conf := View(c.entries[n]);
      r.0.value == Conf.CollectArtifacts(conf, ResolvedLists(r.1, Conf.InheritedFrom(conf)))
    decreases c.entries.Keys - visiting, 2
  {
    if n !in c.entries then (Err("configuration '" + n + "' is not registered"), c)
    else
      var (conf, c1) := Realize(c, n);
      RealizeEvolves(c, n);
      assert KeepsVisiting(c, c1, visiting) by {
        assert c.entries[n].Realized? ==> c1.entries[n] == c.entries[n];
      }
      match conf.artifacts
      case Resolved(artifacts) => (Ok(artifacts), c1)
      case Failed(reason) => (Err(reason), c1)
      case Pending =>
        if n in visiting then (Err("circular dependency on the artifacts of '" + n + "'"), c1)
        else
          var r := Compute(c1, n, conf, visiting);
          EvolvesTransitive(c, c1, r.1);
          assert KeepsVisiting(c, r.1, visiting);
          r
  }

  lemma RealizeEvolves(c: Component, n: string)
    requires n in c.entries
    ensures Evolves(c, Realize(c, n).1)
  {
  }

  /**
    Computes the pending cell of the realised configuration `n`: its own artifacts,
    then those of the other hierarchy members, forced first, each artifact once.
    The outcome, a list or a failure, is kept in the cell.
   */
  function Compute(c: Component, n: string, conf: Conf.Configuration, visiting: set<string>)
    : (r: (Result<seq<Conf.LocalArtifact>, string>, Component))
    requires n in c.entries && c.entries[n] == Realized(conf) && conf.artifacts.Pending? && n !in visiting
    ensures Evolves(c, r.1) && KeepsVisiting(c, r.1, visiting)
    ensures Settled(r.1.entries[n]) && r.0 == Conf.GetArtifacts(r.1.entries[n].conf)
    ensures r.0.Ok? ==> r.0.value == Conf.CollectArtifacts(conf, ResolvedLists(r.1, Conf.InheritedFrom(conf)))
    ensures r.0.Err? ==> exists p | p in Conf.InheritedFrom(conf) :: Blocks(r.1, p, visiting + {n})
    decreases c.entries.Keys - visiting, 1
  {
    var parents := Conf.InheritedFrom(conf);
    var (inherited, c2) :=
      if |conf.declaration.sourceArtifacts| == 0 && |conf.declaration.hierarchy| == 0 then (Ok([]), c)
      else ForceAll(c, parents, visiting + {n});
    var cell := if inherited.Ok? then Conf.Resolved(Conf.CollectArtifacts(conf, inherited.value))
                else Conf.Failed(inherited.error);
    var c3 := c2.(entries := c2.entries[n := Realized(conf.(artifacts := cell))]);
    ComputeStep(c, c2, n, conf, visiting, inherited, cell);
    (Conf.GetArtifacts(conf.(artifacts := cell)), c3)
  }

  /** Storing the computed cell of `n` keeps every promise of `Compute`. */
  lemma ComputeStep(c: Component, c2: Component, n: string, conf: Conf.Configuration, visiting: set<string>,
                    inherited: Result<seq<seq<Conf.LocalArtifact>>, string>, cell: Conf.ArtifactCell)
    requires n in c.entries && c.entries[n] == Realized(conf) && conf.artifacts.Pending? && n !in visiting
    requires Evolves(c, c2) && KeepsVisiting(c, c2, visiting + {n})
    requires inherited.Ok? ==>
      |inherited.value| == |Conf.InheritedFrom(conf)|
      && forall i | 0 <= i < |inherited.value| :: HoldsResolved(c2, Conf.InheritedFrom(conf)[i], inherited.value[i])
    requires inherited.Err? ==> exists p | p in Conf.InheritedFrom(conf) :: Blocks(c2, p, visiting + {n})
    ensures var c3 := c2.(entries := c2.entries[n := Realized(conf.(artifacts := cell))]);
      && Evolves(c, c3) && KeepsVisiting(c, c3, visiting)
      && (inherited.Ok? ==> inherited.value == ResolvedLists(c3, Conf.InheritedFrom(conf)))
      && (inherited.Err? ==> exists p | p in Conf.InheritedFrom(conf) :: Blocks(c3, p, visiting + {n}))
  {
    var c3 := c2.(entries := c2.entries[n := Realized(conf.(artifacts := cell))]);
    StoreEvolves(c, c2, n, conf, visiting, conf.(artifacts := cell));
    if inherited.Err? {
      var p :| p in Conf.InheritedFrom(conf) && Blocks(c2, p, visiting + {n});
      assert Blocks(c3, p, visiting + {n});
    }
    if inherited.Ok? {
      var parents := Conf.InheritedFrom(conf);
      forall i | 0 <= i < |parents|
        ensures inherited.value[i] == ResolvedList(c3, parents[i])
      {
        assert parents[i] in parents;
        assert HoldsResolved(c2, parents[i], inherited.value[i]);
      }
    }
  }

  /** Overwriting the pending entry of `n` with the same configuration, now computed, is an evolution. */
  lemma StoreEvolves(c: Component, c2: Component, n: string, conf: Conf.Configuration, visiting: set<string>,
                     computed: Conf.Configuration)
    requires n in c.entries && c.entries[n] == Realized(conf) && conf.artifacts.Pending? && n !in visiting
    requires computed.declaration == conf.declaration
    requires Evolves(c, c2) && KeepsVisiting(c, c2, visiting + {n})
    ensures var c3 := c2.(entries := c2.entries[n := Realized(computed)]);
      Evolves(c, c3) && KeepsVisiting(c, c3, visiting)
  {
    var c3 := c2.(entries := c2.entries[n := Realized(computed)]);
    assert c2.entries[n] == Realized(conf);
    assert Evolves(c2, c3);
    EvolvesTransitive(c, c2, c3);
  }

  /** Forces each of `parents` in order and collects their lists; the first failure stops it. */
  function ForceAll(c: Component, parents: seq<string>, visiting: set<string>)
    : (r: (Result<seq<seq<Conf.LocalArtifact>>, string>, Component))
    ensures Evolves(c, r.1) && KeepsVisiting(c, r.1, visiting)
    ensures r.0.Ok? ==>
      |r.0.value| == |parents| && forall i | 0 <= i < |parents| :: HoldsResolved(r.1, parents[i], r.0.value[i])
    ensures r.0.Err? ==> exists p | p in parents :: Blocks(r.1, p, visiting)
    decreases c.entries.Keys - visiting, 3, |parents|
  {
    if |parents| == 0 then (Ok([]), c)
    else
      var (first, c1) := Force(c, parents[0], visiting);
      if first.Err? then
        assert Blocks(c1, parents[0], visiting);
        (Err(first.error), c1)
      else
        var (rest, c2) := ForceAll(c1, parents[1..], visiting);
        ForceAllStep(c, c1, c2, parents, visiting, first.value, rest);
        if rest.Err? then
          BlockedInTail(c2, parents, visiting);
          (Err(rest.error), c2)
        else (Ok([first.value] + rest.value), c2)
  }

  /** Forcing the first parent and then the rest keeps every promise of `ForceAll`. */
  lemma ForceAllStep(c: Component, c1: Component, c2: Component, parents: seq<string>, visiting: set<string>,
                     first: seq<Conf.LocalArtifact>, rest: Result<seq<seq<Conf.LocalArtifact>>, string>)
    requires |parents| > 0
    requires Evolves(c, c1) && KeepsVisiting(c, c1, visiting) && HoldsResolved(c1, parents[0], first)
    requires Evolves(c1, c2) && KeepsVisiting(c1, c2, visiting)
    requires rest.Ok? ==>
      |rest.value| == |parents[1..]|
      && forall i | 0 <= i < |parents[1..]| :: HoldsResolved(c2, parents[1..][i], rest.value[i])
    ensures Evolves(c, c2) && KeepsVisiting(c, c2, visiting)
    ensures rest.Ok? ==>
      var all := [first] + rest.value;
      |all| == |parents| && forall i | 0 <= i < |parents| :: HoldsResolved(c2, parents[i], all[i])
  {
    EvolvesTransitive(c, c1, c2);
    if rest.Ok? {
      assert HoldsResolved(c2, parents[0], first);
      assert forall i | 1 <= i < |parents| :: parents[i] == parents[1..][i - 1];
    }
  }

  /** A member blocking the rest of the parents blocks the parents. */
  lemma BlockedInTail(d: Component, parents: seq<string>, visiting: set<string>)
    requires |parents| > 0 && exists p | p in parents[1..] :: Blocks(d, p, visiting)
    ensures exists p | p in parents :: Blocks(d, p, visiting)
  {
    var p :| p in parents[1..] && Blocks(d, p, visiting);
    assert p in parents;
  }

  /** `prepareToResolveArtifacts().getArtifacts()` on a configuration of the component. */
  function PrepareToResolveArtifacts(c: Component, n: string)
    : (r: (Result<seq<Conf.LocalArtifact>, string>, Component))
    ensures n !in c.entries ==> r.0.Err? && r.1 == c
    ensures n in c.entries ==> n in r.1.entries && Settled(r.1.entries[n]) && r.0 == Conf.GetArtifacts(r.1.entries[n].conf)
    ensures r.0.Err? && n in c.entries && View(c.entries[n]).artifacts.Pending? ==>
      exists p | p in Conf.InheritedFrom(View(c.entries[n])) :: Blocks(r.1, p, {n})
    ensures Evolves(c, r.1)
    ensures Valid(c) ==> Valid(r.1)
  {
    assert {} + {n} == {n};
    Force(c, n, {})
  }

  /** The artifact cell is computed at most once: preparing again changes nothing. */
  lemma PrepareIsIdempotent(c: Component, n: string)
    ensures var (r, d) := PrepareToResolveArtifacts(c, n);
      PrepareToResolveArtifacts(d, n) == (r, d)
  {
    var (r, d) := PrepareToResolveArtifacts(c, n);
    if n in c.entries {
      assert d.entries[n := Realized(d.entries[n].conf)] == d.entries;
    }
  }

  /**
    A configuration whose cell was not computed gets its own artifacts first and then
    the computed artifacts of every other hierarchy member, each artifact once.
   */
  lemma PreparedArtifactsFollowHierarchy(c: Component, n: string)
    requires n in c.entries && View(c.entries[n]).artifacts.Pending?
    ensures var (r, d) := PrepareToResolveArtifacts(c, n);
      var conf := View(c.entries[n]);
      r.Ok? ==> r.value == Conf.CollectArtifacts(conf, ResolvedLists(d, Conf.InheritedFrom(conf)))
  {
  }

  /** With no own artifacts and an empty hierarchy the configuration has no artifacts. */
  lemma NothingDeclaredPreparesEmpty(c: Component, n: string)
    requires n in c.entries
    requires var conf := View(c.entries[n]);
      conf.artifacts.Pending? && |conf.declaration.sourceArtifacts| == 0 && |conf.declaration.hierarchy| == 0
    ensures PrepareToResolveArtifacts(c, n).0 == Ok([])
  {
    var (conf, c1) := Realize(c, n);
    assert Conf.CollectArtifacts(conf, []) == [];
    assert Force(c, n, {}) == Compute(c1, n, conf, {});
  }

  // ---------------------------------------------------------------------------
  // Variants for graph traversal
  // ---------------------------------------------------------------------------

  predicate IsTraversalVariant(c: Component, n: string)
    requires n in c.entries && n in c.consumable
  {
    c.consumable[n] && |View(c.entries[n]).declaration.attributes| > 0
  }

  /** Reference: the consumable configurations with attributes, in registration order. */
  function TraversalCandidates(c: Component, names: seq<string>): seq<Conf.Configuration>
    requires forall n | n in names :: n in c.entries && n in c.consumable
  {
    if |names| == 0 then []
    else
      (if IsTraversalVariant(c, names[0]) then [View(c.entries[names[0]])] else [])
      + TraversalCandidates(c, names[1..])
  }

  /** Walks `names`, realising only the consumable entries. */
  function CollectTraversal(c: Component, names: seq<string>)
    : (r: (seq<Conf.Configuration>, Component))
    requires forall n | n in names :: n in c.entries && n in c.consumable
    ensures r.1.id == c.id && r.1.names == c.names && r.1.consumable == c.consumable
    ensures r.1.traversal == c.traversal && r.1.entries.Keys == c.entries.Keys
    ensures forall m | m in c.entries :: View(r.1.entries[m]) == View(c.entries[m])
    ensures forall m | m in c.entries && !(m in names && c.consumable[m]) :: r.1.entries[m] == c.entries[m]
    ensures forall m | m in names && c.consumable[m] :: r.1.entries[m].Realized?
    ensures r.0 == TraversalCandidates(c, names)
    decreases |names|
  {
    if |names| == 0 then ([], c)
    else
      var n := names[0];
      if c.consumable[n] then
        var (conf, c1) := Realize(c, n);
        var (rest, c2) := CollectTraversal(c1, names[1..]);
        assert TraversalCandidates(c1, names[1..]) == TraversalCandidates(c, names[1..]) by {
          TraversalCandidatesDependOnViews(c1, c, names[1..]);
        }
        ((if |conf.declaration.attributes| > 0 then [conf] else []) + rest, c2)
      else
        var (rest, c2) := CollectTraversal(c, names[1..]);
        (rest, c2)
  }

  lemma {:induction false} TraversalCandidatesDependOnViews(c: Component, d: Component, names: seq<string>)
    requires forall n | n in names :: n in c.entries && n in c.consumable && n in d.entries && n in d.consumable
    requires forall n | n in names :: c.consumable[n] == d.consumable[n] && View(c.entries[n]) == View(d.entries[n])
    ensures TraversalCandidates(c, names) == TraversalCandidates(d, names)
    decreases |names|
  {
    if |names| > 0 {
      TraversalCandidatesDependOnViews(c, d, names[1..]);
    }
  }

  /**
    `getVariantsForGraphTraversal`: computed on the first call and cached; absent
    when no configuration qualifies.
   */
  function VariantsForGraphTraversal(c: Component): (r: (Option<seq<Conf.Configuration>>, Component))
    requires Valid(c)
    ensures Valid(r.1) && r.1.names == c.names && r.1.consumable == c.consumable
    ensures r.1.traversal == Some(r.0)
    ensures c.traversal.Some? ==> r == (c.traversal.value, c)
    ensures c.traversal.None? ==>
      var candidates := TraversalCandidates(c, c.names);
      r.0 == (if |candidates| == 0 then None else Some(candidates))
    ensures forall m | m in c.entries && !c.consumable[m] :: r.1.entries[m] == c.entries[m]
  {
    if c.traversal.Some? then (c.traversal.value, c)
    else
      var (candidates, c1) := CollectTraversal(c, c.names);
      var variants := if |candidates| == 0 then None else Some(candidates);
      (variants, c1.(traversal := Some(variants)))
  }

  /** The traversal variants are exactly the consumable configurations with attributes. */
  lemma {:induction false} TraversalCandidatesQualify(c: Component, names: seq<string>, conf: Conf.Configuration)
    requires forall n | n in names :: n in c.entries && n in c.consumable
    ensures conf in TraversalCandidates(c, names) <==>
      exists n | n in names :: IsTraversalVariant(c, n) && View(c.entries[n]) == conf
    decreases |names|
  {
    if |names| > 0 {
      TraversalCandidatesQualify(c, names[1..], conf);
      assert forall n | n in names :: n == names[0] || n in names[1..];
    }
  }

  /** Later registrations do not change what a computed traversal list says. */
  lemma TraversalIsComputedOnce(c: Component, raw: RawConfiguration)
    requires Valid(c)
    ensures var (first, d) := VariantsForGraphTraversal(c);
      VariantsForGraphTraversal(Register(d, raw)).0 == first
      && VariantsForGraphTraversal(d) == (first, d)
  {
  }

  // ---------------------------------------------------------------------------
  // Copy
  // ---------------------------------------------------------------------------

  /** Prepares configuration `n` of `c` and copies it through the memo. */
  function CopyOne(c: Component, n: string, cache: Conf.TransformCache, t: Conf.Transformer)
    : (r: (Result<(Conf.Configuration, Conf.TransformCache), string>, Component))
    requires n in c.entries
    ensures Evolves(c, r.1) && Settled(r.1.entries[n])
    ensures r.0.Ok? <==> r.1.entries[n].conf.artifacts.Resolved?
    ensures r.0.Ok? ==>
      && Conf.Copied(r.1.entries[n].conf, r.0.value.0, r.0.value.1.memo)
      && Conf.Extends(r.0.value.1, cache)
      && (Conf.CacheValid(cache, t) ==> Conf.CacheValid(r.0.value.1, t))
  {
    var (artifacts, c1) := Force(c, n, {});
    match Conf.Copy(c1.entries[n].conf, cache, t)
    case Err(e) => (Err(e), c1)
    case Ok(copied) => (Ok(copied), c1)
  }

  /**
    `copy` holds, for each of `names`, an unrealised entry with a copy through `memo`
    of the (realised) configuration of that name in `source`, flagged as the copy
    says; everything else is as in `target`.
   */
  ghost predicate CopiedInto(copy: Component, target: Component, names: seq<string>, source: Component,
                             memo: map<Conf.LocalArtifact, Conf.LocalArtifact>) {
    && copy.id == target.id && copy.traversal == target.traversal
    && (forall m | m in target.entries && m !in names :: m in copy.entries && copy.entries[m] == target.entries[m])
    && (forall m | m in target.consumable && m !in names :: m in copy.consumable && copy.consumable[m] == target.consumable[m])
    && forall m | m in names ::
         && m in source.entries && source.entries[m].Realized?
         && m in copy.entries && copy.entries[m].Unrealized? && copy.entries[m].source.Eager?
         && Conf.Copied(source.entries[m].conf, copy.entries[m].source.conf, memo)
         && m in copy.consumable && copy.consumable[m] == source.entries[m].conf.declaration.canBeConsumed
  }

  /** What copying `names` of `source` into `target` promises about its outcome `r`. */
  ghost predicate CopyIntoPost(source: Component, names: seq<string>, target: Component,
                               cache: Conf.TransformCache, t: Conf.Transformer,
                               r: (Result<(Component, Conf.TransformCache), string>, Component))
  {
    && Evolves(source, r.1)
    && (r.0.Ok? ==> CopiedAll(names, target, cache, t, r.0.value.0, r.0.value.1, r.1))
    && (r.0.Err? ==> exists m | m in names :: HoldsFailure(r.1, m))
  }

  /** The cell of `m` in `d` is settled on a failure. */
  predicate HoldsFailure(d: Component, m: string) {
    m in d.entries && Settled(d.entries[m]) && d.entries[m].conf.artifacts.Failed?
  }

  /** A failure among the rest of the names is a failure among the names. */
  lemma FailedInTail(d: Component, names: seq<string>)
    requires |names| > 0 && exists m | m in names[1..] :: HoldsFailure(d, m)
    ensures exists m | m in names :: HoldsFailure(d, m)
  {
    var m :| m in names[1..] && HoldsFailure(d, m);
    assert m in names;
  }

  /** What a successful copy of `names` into `target` promises, `s` being the prepared source. */
  ghost predicate CopiedAll(names: seq<string>, target: Component, cache: Conf.TransformCache, t: Conf.Transformer,
                            copy: Component, memo: Conf.TransformCache, s: Component)
  {
    && CopiedInto(copy, target, names, s, memo.memo)
    && (forall m | m in names :: m in s.entries && Settled(s.entries[m]))
    && Conf.Extends(memo, cache)
    && (Conf.CacheValid(cache, t) ==> Conf.CacheValid(memo, t))
    && (Conf.Distinct(target.names + names) ==> copy.names == target.names + names)
    && (Valid(target) ==> Valid(copy))
  }

  /**
    Copies the configurations `names` of `source` into `target`, in order, each
    prepared first and then copied through the shared memo.
   */
  function CopyInto(source: Component, names: seq<string>, target: Component,
                    cache: Conf.TransformCache, t: Conf.Transformer)
    : (r: (Result<(Component, Conf.TransformCache), string>, Component))
    requires forall n | n in names :: n in source.entries
    ensures CopyIntoPost(source, names, target, cache, t, r)
    decreases |names|, 1
  {
    if |names| == 0 then
      assert target.names + names == target.names;
      (Ok((target, cache)), source)
    else
      var (one, s1) := CopyOne(source, names[0], cache, t);
      if one.Err? then
        assert HoldsFailure(s1, names[0]);
        (Err(one.error), s1)
      else CopyRest(source, names, target, cache, one.value.0, one.value.1, s1, t)
  }

  /** Puts the copy of `names[0]` into `target` and copies the rest of `names`. */
  function CopyRest(source: Component, names: seq<string>, target: Component, cache: Conf.TransformCache,
                    conf: Conf.Configuration, cache1: Conf.TransformCache, s1: Component,
                    t: Conf.Transformer)
    : (r: (Result<(Component, Conf.TransformCache), string>, Component))
    requires |names| > 0 && forall n | n in names :: n in source.entries
    requires Evolves(source, s1) && Settled(s1.entries[names[0]])
    requires Conf.Copied(s1.entries[names[0]].conf, conf, cache1.memo)
    requires Conf.Extends(cache1, cache) && (Conf.CacheValid(cache, t) ==> Conf.CacheValid(cache1, t))
    ensures CopyIntoPost(source, names, target, cache, t, r)
    decreases |names|, 0
  {
    var n := names[0];
    var target1 := Put(target, n, conf.declaration.canBeConsumed, Unrealized(Eager(conf)));
    assert forall m | m in names[1..] :: m in names;
    var r := CopyInto(s1, names[1..], target1, cache1, t);
    CopyStep(source, names, target, cache, conf, cache1, s1, t, r);
    r
  }

  lemma CopyStep(source: Component, names: seq<string>, target: Component, cache: Conf.TransformCache,
                 conf: Conf.Configuration, cache1: Conf.TransformCache, s1: Component,
                 t: Conf.Transformer,
                 r: (Result<(Component, Conf.TransformCache), string>, Component))
    requires |names| > 0 && names[0] in source.entries
    requires Evolves(source, s1) && Settled(s1.entries[names[0]])
    requires Conf.Copied(s1.entries[names[0]].conf, conf, cache1.memo)
    requires Conf.Extends(cache1, cache) && (Conf.CacheValid(cache, t) ==> Conf.CacheValid(cache1, t))
    requires CopyIntoPost(s1, names[1..],
      Put(target, names[0], conf.declaration.canBeConsumed, Unrealized(Eager(conf))), cache1, t, r)
    ensures CopyIntoPost(source, names, target, cache, t, r)
  {
    EvolvesTransitive(source, s1, r.1);
    if r.0.Err? {
      FailedInTail(r.1, names);
    }
    if r.0.Ok? {
      CopiedAllStep(names, target, cache, conf, cache1, s1, t, r.0.value.0, r.0.value.1, r.1);
    }
  }

  lemma CopiedAllStep(names: seq<string>, target: Component, cache: Conf.TransformCache,
                      conf: Conf.Configuration, cache1: Conf.TransformCache, s1: Component,
                      t: Conf.Transformer, copy: Component, memo: Conf.TransformCache, s2: Component)
    requires |names| > 0 && names[0] in s1.entries && Settled(s1.entries[names[0]])
    requires Evolves(s1, s2)
    requires Conf.Copied(s1.entries[names[0]].conf, conf, cache1.memo)
    requires Conf.Extends(cache1, cache) && (Conf.CacheValid(cache, t) ==> Conf.CacheValid(cache1, t))
    requires CopiedAll(names[1..], Put(target, names[0], conf.declaration.canBeConsumed, Unrealized(Eager(conf))),
                       cache1, t, copy, memo, s2)
    ensures CopiedAll(names, target, cache, t, copy, memo, s2)
  {
    var n := names[0];
    var target1 := Put(target, n, conf.declaration.canBeConsumed, Unrealized(Eager(conf)));
    Conf.ExtendsTransitive(memo, cache1, cache);
    Conf.CopiedExtends(s1.entries[n].conf, conf, cache1, memo);
    CopiedIntoStep(copy, target, names, conf, s1, s2, memo.memo);
    SettledStep(names, s1, s2);
    CopiedNamesStep(target, target1, names, copy);
  }

  lemma CopiedNamesStep(target: Component, target1: Component, names: seq<string>, copy: Component)
    requires |names| > 0
    requires target1.names == (if names[0] in target.names then target.names else target.names + [names[0]])
    requires Conf.Distinct(target1.names + names[1..]) ==> copy.names == target1.names + names[1..]
    ensures Conf.Distinct(target.names + names) ==> copy.names == target.names + names
  {
    NamesStep(target.names, names);
  }

  lemma CopiedIntoStep(copy: Component, target: Component, names: seq<string>, conf: Conf.Configuration,
                       s1: Component, s2: Component, memo: map<Conf.LocalArtifact, Conf.LocalArtifact>)
    requires |names| > 0
    requires CopiedInto(copy, Put(target, names[0], conf.declaration.canBeConsumed, Unrealized(Eager(conf))), names[1..], s2, memo)
    requires Evolves(s1, s2) && names[0] in s1.entries && Settled(s1.entries[names[0]])
    requires Conf.Copied(s1.entries[names[0]].conf, conf, memo)
    ensures CopiedInto(copy, target, names, s2, memo)
  {
    var n, rest := names[0], names[1..];
    var target1 := Put(target, n, conf.declaration.canBeConsumed, Unrealized(Eager(conf)));
    assert forall m :: m in names <==> m == n || m in rest;
    forall m | m in target.entries && m !in names
      ensures m in copy.entries && copy.entries[m] == target.entries[m]
    {
      assert m != n && m in target1.entries;
    }
    forall m | m in target.consumable && m !in names
      ensures m in copy.consumable && copy.consumable[m] == target.consumable[m]
    {
      assert m != n && m in target1.consumable;
    }
    forall m | m in names
      ensures && m in s2.entries && s2.entries[m].Realized?
              && m in copy.entries && copy.entries[m].Unrealized? && copy.entries[m].source.Eager?
              && Conf.Copied(s2.entries[m].conf, copy.entries[m].source.conf, memo)
              && m in copy.consumable && copy.consumable[m] == s2.entries[m].conf.declaration.canBeConsumed
    {
      if m !in rest {
        assert m == n;
        assert s2.entries[n] == s1.entries[n];
        assert n in target1.entries && copy.entries[n] == target1.entries[n];
        assert n in target1.consumable && copy.consumable[n] == target1.consumable[n];
      }
    }
  }

  lemma SettledStep(names: seq<string>, s1: Component, s2: Component)
    requires |names| > 0 && names[0] in s1.entries && Settled(s1.entries[names[0]])
    requires Evolves(s1, s2) && forall m | m in names[1..] :: m in s2.entries && Settled(s2.entries[m])
    ensures forall m | m in names :: m in s2.entries && Settled(s2.entries[m])
  {
    assert forall m | m in names :: m == names[0] || m in names[1..];
  }

  lemma NamesStep(before: seq<string>, names: seq<string>)
    requires |names| > 0
    ensures Conf.Distinct(before + names) ==> names[0] !in before && Conf.Distinct((before + [names[0]]) + names[1..])
    ensures (before + [names[0]]) + names[1..] == before + names
  {
    assert (before + names)[|before|] == names[0];
    assert forall i | 0 <= i < |before| :: (before + names)[i] == before[i];
    assert (before + [names[0]]) + names[1..] == before + names;
  }

  /**
    `copy(id, transformer)`: realises and prepares every configuration and copies
    each through one memo shared by the whole component, keeping names and order.
    The transformer runs at most once per distinct artifact.
   */
  function Copy(c: Component, newId: string, t: Conf.Transformer)
    : (r: (Result<(Component, Conf.TransformCache), string>, Component))
    requires Valid(c)
    ensures Evolves(c, r.1)
    ensures r.0.Ok? ==>
      var (copy, memo) := r.0.value;
      && copy.id == newId && Valid(copy) && copy.names == c.names && copy.traversal.None?
      && CopiedInto(copy, Empty(newId), c.names, r.1, memo.memo)
      && (forall m | m in c.entries :: Settled(r.1.entries[m]))
      && Conf.CacheValid(memo, t)
    ensures r.0.Err? ==> exists m | m in c.entries :: HoldsFailure(r.1, m)
  {
    assert [] + c.names == c.names;
    Conf.EmptyCacheValid(t);
    CopyInto(c, c.names, Empty(newId), Conf.EmptyCache, t)
  }

  /** Each copied configuration has the declaration of the configuration it copies. */
  lemma CopyKeepsDeclarations(c: Component, newId: string, t: Conf.Transformer, m: string)
    requires Valid(c) && m in c.entries
    ensures var r := Copy(c, newId, t).0;
      r.Ok? ==>
        && m in r.value.0.entries && r.value.0.entries[m].Unrealized? && r.value.0.entries[m].source.Eager?
        && r.value.0.entries[m].source.conf.declaration == View(c.entries[m]).declaration
  {
    var (r, s) := Copy(c, newId, t);
    if r.Ok? {
      assert m in c.names;
      CopiedEntry(r.value.0, Empty(newId), c.names, s, r.value.1.memo, m);
      assert DeclarationOf(s.entries[m]) == DeclarationOf(c.entries[m]);
    }
  }

  /** Where an artifact sits in a component: in a configuration's list, or in one of its variants. */
  datatype Position =
    | InList(name: string, index: nat)
    | InVariant(name: string, variant: nat, index: nat)

  /** The artifact at `p`, if the configuration there has one at that place. */
  function At(c: Component, p: Position): Option<Conf.LocalArtifact> {
    if p.name in c.entries then AtIn(View(c.entries[p.name]), p) else None
  }

  /** The artifact at the place `p` names within one configuration. */
  function AtIn(conf: Conf.Configuration, p: Position): Option<Conf.LocalArtifact> {
    match p
    case InList(_, i) =>
      if conf.artifacts.Resolved? && i < |conf.artifacts.artifacts| then Some(conf.artifacts.artifacts[i]) else None
    case InVariant(_, v, i) =>
      if v < |conf.variants| && i < |conf.variants[v].artifacts| then Some(conf.variants[v].artifacts[i]) else None
  }

  /** What a copy records about one copied name. */
  lemma CopiedEntry(copy: Component, target: Component, names: seq<string>, s: Component,
                    memo: map<Conf.LocalArtifact, Conf.LocalArtifact>, m: string)
    requires CopiedInto(copy, target, names, s, memo) && m in names
    ensures m in s.entries && s.entries[m].Realized?
    ensures m in copy.entries && copy.entries[m].Unrealized? && copy.entries[m].source.Eager?
    ensures Conf.Copied(s.entries[m].conf, copy.entries[m].source.conf, memo)
  {
  }

  /** Within one copied configuration, the artifact at a place is the memo's image of the original. */
  lemma ImageIn(conf: Conf.Configuration, dup: Conf.Configuration,
                memo: map<Conf.LocalArtifact, Conf.LocalArtifact>, p: Position)
    requires Conf.Copied(conf, dup, memo) && AtIn(conf, p).Some?
    ensures AtIn(conf, p).value in memo && AtIn(dup, p) == Some(memo[AtIn(conf, p).value])
  {
    match p
    case InList(_, i) =>
    case InVariant(_, v, i) =>
      assert Conf.MappedVariant(conf.variants[v], dup.variants[v], memo);
  }

  /** In a copy, the artifact at a position of a copied configuration is the memo's image of the original. */
  lemma ImageAt(copy: Component, target: Component, names: seq<string>, s: Component,
                memo: map<Conf.LocalArtifact, Conf.LocalArtifact>, p: Position)
    requires CopiedInto(copy, target, names, s, memo)
    requires p.name in names && At(s, p).Some?
    ensures At(s, p).value in memo && At(copy, p) == Some(memo[At(s, p).value])
  {
    CopiedEntry(copy, target, names, s, memo, p.name);
    ImageIn(s.entries[p.name].conf, copy.entries[p.name].source.conf, memo, p);
  }

  /** Two places holding the same artifact hold the same image in a copy. */
  lemma SharedImages(copy: Component, target: Component, names: seq<string>, s: Component,
                     memo: map<Conf.LocalArtifact, Conf.LocalArtifact>, p: Position, q: Position)
    requires CopiedInto(copy, target, names, s, memo)
    requires p.name in names && q.name in names && At(s, p).Some?
    ensures At(s, p).value in memo && At(copy, p) == Some(memo[At(s, p).value])
    ensures At(s, p) == At(s, q) ==> At(copy, p) == At(copy, q)
  {
    ImageAt(copy, target, names, s, memo, p);
    if At(s, p) == At(s, q) {
      ImageAt(copy, target, names, s, memo, q);
    }
  }

  /**
    One memo serves the whole component: an artifact that occurs in two places, in
    the lists or variants of the same or of different configurations, is copied to
    the same artifact in both, whatever the transformer does.
   */
  lemma CopyMapsEqualArtifactsAlike(c: Component, newId: string, t: Conf.Transformer, p: Position, q: Position)
    requires Valid(c) && p.name in c.entries && q.name in c.entries
    ensures var r := Copy(c, newId, t);
      r.0.Ok? && At(r.1, p).Some? ==>
        && At(r.0.value.0, p).Some?
        && (At(r.1, p) == At(r.1, q) ==> At(r.0.value.0, p) == At(r.0.value.0, q))
  {
    var r := Copy(c, newId, t);
    if r.0.Ok? && At(r.1, p).Some? {
      assert p.name in c.names && q.name in c.names;
      SharedImages(r.0.value.0, Empty(newId), c.names, r.1, r.0.value.1.memo, p, q);
    }
  }

  /** Every consumable flag of the source agrees with its configuration. */
  ghost predicate FlagsAgree(c: Component) {
    forall m | m in c.entries && m in c.consumable :: c.consumable[m] == View(c.entries[m]).declaration.canBeConsumed
  }

  /** The builder kept the flag of the configuration it built. */
  predicate FaithfullyBuilt(raw: RawConfiguration) {
    raw.built.declaration.canBeConsumed == raw.canBeConsumed
  }

  lemma RegisterKeepsFlagsAgreeing(c: Component, raw: RawConfiguration)
    requires FlagsAgree(c) && FaithfullyBuilt(raw)
    ensures FlagsAgree(Register(c, raw))
  {
  }

  lemma AddKeepsFlagsAgreeing(c: Component, conf: Conf.Configuration)
    requires FlagsAgree(c)
    ensures FlagsAgree(Add(c, conf).1)
  {
  }

  /** A copy has the same consumable flags as the component it was made from. */
  lemma CopyKeepsFlags(c: Component, newId: string, t: Conf.Transformer)
    requires Valid(c) && FlagsAgree(c)
    ensures var r := Copy(c, newId, t).0;
      r.Ok? ==> r.value.0.consumable == c.consumable
  {
    var (r, s) := Copy(c, newId, t);
    if r.Ok? {
      var copy := r.value.0;
      CopiedFlagsAgree(c, copy, s, r.value.1.memo);
      SameNamesSameKeys(c, copy);
      SameEntriesSameMap(copy.consumable, c.consumable);
    }
  }

  lemma SameEntriesSameMap(a: map<string, bool>, b: map<string, bool>)
    requires a.Keys == b.Keys && forall m | m in b :: m in a && a[m] == b[m]
    ensures a == b
  {
  }

  lemma CopiedFlagsAgree(c: Component, copy: Component, s: Component, memo: map<Conf.LocalArtifact, Conf.LocalArtifact>)
    requires Valid(c) && FlagsAgree(c) && Evolves(c, s)
    requires Valid(copy) && copy.names == c.names && CopiedInto(copy, Empty(copy.id), c.names, s, memo)
    ensures forall m | m in c.consumable :: m in copy.consumable && copy.consumable[m] == c.consumable[m]
  {
    assert KeepsDeclarations(c, s);
    forall m | m in c.consumable
      ensures copy.consumable[m] == c.consumable[m]
    {
      assert m in c.entries && m in c.names;
      CopiedFlagAgrees(c, copy, s, memo, m);
    }
  }

  lemma SameNamesSameKeys(c: Component, d: Component)
    requires Valid(c) && Valid(d) && d.names == c.names
    ensures d.consumable.Keys == c.consumable.Keys
  {
    assert forall m :: m in d.consumable <==> m in c.consumable;
  }

  lemma CopiedFlagAgrees(c: Component, copy: Component, s: Component,
                         memo: map<Conf.LocalArtifact, Conf.LocalArtifact>, m: string)
    requires FlagsAgree(c) && KeepsDeclarations(c, s)
    requires m in c.names && m in c.entries && m in c.consumable
    requires CopiedInto(copy, Empty(copy.id), c.names, s, memo)
    ensures m in copy.consumable && copy.consumable[m] == c.consumable[m]
  {
    assert m in s.entries && s.entries[m].Realized?;
    assert copy.consumable[m] == s.entries[m].conf.declaration.canBeConsumed;
    assert DeclarationOf(s.entries[m]) == DeclarationOf(c.entries[m]);
  }

  // ---------------------------------------------------------------------------
  // Re-evaluation
  // ---------------------------------------------------------------------------

  /** Finds the build-model configuration of a name. */
  type ConfigurationsProvider = string -> Option<RawConfiguration>

  function ReregisterAll(c: Component, names: seq<string>, provider: ConfigurationsProvider): (r: Result<Component, string>)
    ensures r.Err? <==> exists n | n in names :: provider(n).None?
    ensures r.Ok? ==> r.value.id == c.id && r.value.traversal == c.traversal
    ensures r.Ok? && Valid(c) ==> Valid(r.value)
    ensures r.Ok? && (forall n | n in names :: provider(n).value.name == n && n in c.names) ==>
      && r.value.names == c.names
      && (forall n | n in names :: n in r.value.entries && r.value.entries[n] == Unrealized(FromRaw(provider(n).value)))
      && (forall m | m in c.entries && m !in names :: m in r.value.entries && r.value.entries[m] == c.entries[m])
    decreases |names|
  {
    if |names| == 0 then Ok(c)
    else
      match provider(names[0])
      case None => Err("configuration '" + names[0] + "' not found")
      case Some(raw) =>
        var rest := ReregisterAll(Register(c, raw), names[1..], provider);
        assert forall n | n in names :: n == names[0] || n in names[1..];
        rest
  }

  /**
    `reevaluate`: re-registers every name, in order, with the configuration the
    provider now gives for it, so that every entry is unrealised again.
   */
  function Reevaluate(c: Component, provider: ConfigurationsProvider): (r: Result<Component, string>)
    ensures r.Err? <==> exists n | n in c.names :: provider(n).None?
    ensures r.Ok? && Valid(c) ==> Valid(r.value)
  {
    ReregisterAll(c, c.names, provider)
  }

  /**
    When the provider answers every name with a configuration of that name, the names
    and their order survive and nothing is realised any more.
   */
  lemma ReevaluateUnrealizesAll(c: Component, provider: ConfigurationsProvider)
    requires Valid(c)
    requires forall n | n in c.names :: provider(n).Some? && provider(n).value.name == n
    ensures var r := Reevaluate(c, provider);
      && r.Ok? && r.value.names == c.names
      && forall n | n in c.names :: IsConfigurationRealized(r.value, n) == Some(false)
  {
  }
}

=== FILE: local_configuration.dfy ===
/**
  The metadata of one configuration of a local component
  (DefaultLocalConfigurationMetadata): an immutable record of what the configuration
  declares, plus a lazily computed, de-duplicated list of the artifacts it publishes.
  Forcing the artifact cell needs the owning component and is modelled there; this
  module holds the record, the way the artifact list is assembled once the inherited
  lists are known, the lookup by artifact name and the copy under a cached transformer.
 */
module LocalConfiguration {
  import opened Wrappers

  /** An Ivy artifact name: name, type, extension and optional classifier. */
  datatype ArtifactName = ArtifactName(name: string, kind: string, extension: string, classifier: Option<string>)

  /** An artifact declared on a configuration, before it is tied to a component. */
  datatype PublishArtifact = PublishArtifact(name: ArtifactName, file: string)

  /** An artifact of a local component. Artifacts are compared by value. */
  datatype LocalArtifact = LocalArtifact(componentId: string, name: ArtifactName, file: string)

  /** The answer to a lookup by name: a real artifact or a placeholder for a missing one. */
  datatype ComponentArtifact =
    | Present(artifact: LocalArtifact)
    | Missing(componentId: string, name: ArtifactName)

  /** The lazily computed artifact list: not yet computed, computed, or failed for good. */
  datatype ArtifactCell = Pending | Resolved(artifacts: seq<LocalArtifact>) | Failed(reason: string)

  datatype Dependency = Dependency(notation: string)
  datatype FileDependency = FileDependency(files: string)
  datatype Exclude = Exclude(rule: string)

  /** A variant of a configuration, with its already resolved artifacts. */
  datatype Variant = Variant(
    name: string, identifier: string, attributes: map<string, string>,
    capabilities: seq<string>, artifacts: seq<LocalArtifact>)

  /** What a configuration declares: everything about it that a copy keeps. */
  datatype Declaration = Declaration(
    name: string,
    description: string,
    componentId: string,
    visible: bool,
    transitive: bool,
    hierarchy: seq<string>,
    attributes: map<string, string>,
    capabilities: seq<string>,
    canBeConsumed: bool,
    consumptionDeprecation: Option<string>,
    canBeResolved: bool,
    definedDependencies: seq<Dependency>,
    definedFiles: seq<FileDependency>,
    definedExcludes: seq<Exclude>,
    dependencies: seq<Dependency>,
    files: set<FileDependency>,
    excludes: seq<Exclude>,
    sourceArtifacts: seq<PublishArtifact>)

  /** A configuration: its declaration, its variants and its artifact cell. */
  datatype Configuration = Configuration(declaration: Declaration, variants: seq<Variant>, artifacts: ArtifactCell)

  predicate Distinct<T(==,!new)>(s: seq<T>) {
    forall i, j | 0 <= i < j < |s| :: s[i] != s[j]
  }

  // ---------------------------------------------------------------------------
  // Insertion-ordered de-duplication (a LinkedHashSet filled left to right)
  // ---------------------------------------------------------------------------

  /** Adds each element of `s` to `acc` unless it is already there. */
  function AppendDistinct<T(==,!new)>(acc: seq<T>, s: seq<T>): (r: seq<T>)
    ensures |acc| <= |r| && r[..|acc|] == acc
    ensures forall x :: x in r <==> x in acc || x in s
    ensures Distinct(acc) ==> Distinct(r)
    decreases |s|
  {
    if |s| == 0 then acc
    else
      var next := if s[0] in acc then acc else acc + [s[0]];
      assert next[..|acc|] == acc;
      AppendDistinct(next, s[1..])
  }

  function Dedup<T(==,!new)>(s: seq<T>): (r: seq<T>)
    ensures Distinct(r)
    ensures forall x :: x in r <==> x in s
  {
    AppendDistinct([], s)
  }

  /** Reference definition: the elements of `s` at their first occurrence, in order. */
  function FirstOccurrences<T(==,!new)>(s: seq<T>): seq<T> {
    if |s| == 0 then []
    else
      var init := s[..|s| - 1];
      FirstOccurrences(init) + (if s[|s| - 1] in init then [] else [s[|s| - 1]])
  }

  lemma {:induction false} AppendDistinctOfConcat<T(!new)>(acc: seq<T>, a: seq<T>, b: seq<T>)
    ensures AppendDistinct(acc, a + b) == AppendDistinct(AppendDistinct(acc, a), b)
    decreases |a|
  {
    if |a| == 0 {
      assert a + b == b;
    } else {
      assert (a + b)[0] == a[0];
      assert (a + b)[1..] == a[1..] + b;
      var next := if a[0] in acc then acc else acc + [a[0]];
      AppendDistinctOfConcat(next, a[1..], b);
    }
  }

  /** De-duplicating a concatenation de-duplicates the first part and then adds the rest. */
  lemma DedupOfConcat<T(!new)>(a: seq<T>, b: seq<T>)
    ensures Dedup(a + b) == AppendDistinct(Dedup(a), b)
  {
    AppendDistinctOfConcat([], a, b);
  }

  /** The de-duplication keeps exactly the first occurrence of every element, in order. */
  lemma {:induction false} DedupKeepsFirstOccurrences<T(!new)>(s: seq<T>)
    ensures Dedup(s) == FirstOccurrences(s)
    decreases |s|
  {
    if |s| > 0 {
      var init := s[..|s| - 1];
      var x := s[|s| - 1];
      assert s == init + [x];
      DedupOfConcat(init, [x]);
      DedupKeepsFirstOccurrences(init);
      AppendOne(Dedup(init), x);
    }
  }

  /** Adding one element appends it exactly when it is new. */
  lemma AppendOne<T(!new)>(acc: seq<T>, x: T)
    ensures AppendDistinct(acc, [x]) == if x in acc then acc else acc + [x]
  {
    assert [x][1..] == [];
  }

  // ---------------------------------------------------------------------------
  // The record and its artifact list
  // ---------------------------------------------------------------------------

  /**
    The constructor: every field but the hierarchy is stored as given, the
    hierarchy is taken as an ordered set, and the artifact cell starts uncomputed.
   */
  function Create(
    name: string, description: string, componentId: string, visible: bool, transitive: bool,
    hierarchy: seq<string>, attributes: map<string, string>, capabilities: seq<string>,
    canBeConsumed: bool, consumptionDeprecation: Option<string>, canBeResolved: bool,
    definedDependencies: seq<Dependency>, definedFiles: seq<FileDependency>, definedExcludes: seq<Exclude>,
    dependencies: seq<Dependency>, files: set<FileDependency>, excludes: seq<Exclude>,
    variants: seq<Variant>, sourceArtifacts: seq<PublishArtifact>): (r: Configuration)
    ensures r.variants == variants
    ensures r.declaration.(hierarchy := hierarchy) == Declaration(
      name, description, componentId, visible, transitive, hierarchy, attributes, capabilities,
      canBeConsumed, consumptionDeprecation, canBeResolved,
      definedDependencies, definedFiles, definedExcludes, dependencies, files, excludes, sourceArtifacts)
    ensures Distinct(r.declaration.hierarchy) && (forall h :: h in r.declaration.hierarchy <==> h in hierarchy)
    ensures r.declaration.hierarchy == FirstOccurrences(hierarchy)
    ensures Distinct(hierarchy) ==> r.declaration.hierarchy == hierarchy
    ensures r.artifacts == Pending
  {
    DedupIdentityOnDistinct(hierarchy);
    DedupKeepsFirstOccurrences(hierarchy);
    Configuration(
      Declaration(
        name, description, componentId, visible, transitive, Dedup(hierarchy), attributes, capabilities,
        canBeConsumed, consumptionDeprecation, canBeResolved,
        definedDependencies, definedFiles, definedExcludes, dependencies, files, excludes, sourceArtifacts),
      variants, Pending)
  }

  lemma {:induction false} AppendDistinctOfFresh<T(!new)>(acc: seq<T>, s: seq<T>)
    requires Distinct(acc + s)
    ensures AppendDistinct(acc, s) == acc + s
    decreases |s|
  {
    if |s| > 0 {
      assert s[0] !in acc by {
        assert forall i | 0 <= i < |acc| :: (acc + s)[i] == acc[i];
        assert (acc + s)[|acc|] == s[0];
      }
      assert acc + s == (acc + [s[0]]) + s[1..];
      AppendDistinctOfFresh(acc + [s[0]], s[1..]);
    }
  }

  lemma DedupIdentityOnDistinct<T(!new)>(s: seq<T>)
    ensures Distinct(s) ==> Dedup(s) == s
  {
    if Distinct(s) {
      assert [] + s == s;
      AppendDistinctOfFresh([], s);
    }
  }

  /** The local artifacts made from a configuration's own declared artifacts. */
  function OwnArtifacts(componentId: string, sources: seq<PublishArtifact>): (r: seq<LocalArtifact>)
    ensures |r| == |sources|
    ensures forall i | 0 <= i < |r| :: r[i] == LocalArtifact(componentId, sources[i].name, sources[i].file)
  {
    seq(|sources|, i requires 0 <= i < |sources| => LocalArtifact(componentId, sources[i].name, sources[i].file))
  }

  function Flatten<T(!new)>(ss: seq<seq<T>>): (r: seq<T>)
    ensures forall x :: x in r <==> exists i | 0 <= i < |ss| :: x in ss[i]
  {
    if |ss| == 0 then [] else ss[0] + Flatten(ss[1..])
  }

  /**
    The hierarchy members whose artifacts a configuration inherits: all of them but
    the configuration itself, in hierarchy order.
   */
  function InheritedFrom(conf: Configuration): (r: seq<string>)
    ensures forall h :: h in r <==> h in conf.declaration.hierarchy && h != conf.declaration.name
  {
    Without(conf.declaration.hierarchy, conf.declaration.name)
  }

  function Without(s: seq<string>, x: string): (r: seq<string>)
    ensures forall h :: h in r <==> h in s && h != x
    ensures |r| <= |s|
  {
    if |s| == 0 then [] else (if s[0] == x then [] else [s[0]]) + Without(s[1..], x)
  }

  /**
    The artifact list, given the resolved lists of the inherited configurations in
    order: own artifacts first, then the inherited ones, each artifact once.
   */
  function CollectArtifacts(conf: Configuration, inherited: seq<seq<LocalArtifact>>): (r: seq<LocalArtifact>)
    ensures Distinct(r)
    ensures |conf.declaration.sourceArtifacts| == 0 && |conf.declaration.hierarchy| == 0 ==> r == []
    ensures |conf.declaration.hierarchy| > 0 || |inherited| == 0 ==> forall a :: a in r <==>
      a in OwnArtifacts(conf.declaration.componentId, conf.declaration.sourceArtifacts) || exists i | 0 <= i < |inherited| :: a in inherited[i]
  {
    if |conf.declaration.sourceArtifacts| == 0 && |conf.declaration.hierarchy| == 0 then []
    else Dedup(OwnArtifacts(conf.declaration.componentId, conf.declaration.sourceArtifacts) + Flatten(inherited))
  }

  /** The own artifacts head the list, de-duplicated, in declaration order. */
  lemma OwnArtifactsComeFirst(conf: Configuration, inherited: seq<seq<LocalArtifact>>)
    ensures var own := Dedup(OwnArtifacts(conf.declaration.componentId, conf.declaration.sourceArtifacts));
      var r := CollectArtifacts(conf, inherited);
      |own| <= |r| && r[..|own|] == own
  {
    var own := OwnArtifacts(conf.declaration.componentId, conf.declaration.sourceArtifacts);
    DedupOfConcat(own, Flatten(inherited));
  }

  /**
    Whenever something is declared, the whole list is the first occurrences of own
    then inherited artifacts.
   */
  lemma CollectedArtifactsAreFirstOccurrences(conf: Configuration, inherited: seq<seq<LocalArtifact>>)
    ensures |conf.declaration.sourceArtifacts| > 0 || |conf.declaration.hierarchy| > 0 ==>
      CollectArtifacts(conf, inherited)
         == FirstOccurrences(OwnArtifacts(conf.declaration.componentId, conf.declaration.sourceArtifacts) + Flatten(inherited))
  {
    DedupKeepsFirstOccurrences(OwnArtifacts(conf.declaration.componentId, conf.declaration.sourceArtifacts) + Flatten(inherited));
  }

  /** With nothing declared and nothing inherited the artifact list is empty. */
  lemma NothingDeclaredNoArtifacts(conf: Configuration)
    requires |conf.declaration.sourceArtifacts| == 0 && |conf.declaration.hierarchy| == 0
    ensures CollectArtifacts(conf, []) == []
  {
  }

  /** `isExternalVariant`: a local configuration never is one. */
  function IsExternalVariant(conf: Configuration): (r: bool)
    ensures !r
  {
    false
  }

  /** `getArtifacts`: the computed list, or the reason it is not available. */
  function GetArtifacts(conf: Configuration): (r: Result<seq<LocalArtifact>, string>)
    ensures r.Ok? <==> conf.artifacts.Resolved?
    ensures r.Ok? ==> r.value == conf.artifacts.artifacts
    ensures conf.artifacts.Failed? ==> r == Err(conf.artifacts.reason)
  {
    match conf.artifacts
    case Pending => Err("value of " + conf.declaration.description + " artifacts has not been calculated")
    case Failed(reason) => Err(reason)
    case Resolved(artifacts) => Ok(artifacts)
  }

  /** The first artifact of `artifacts` carrying the name `n`. */
  function FindByName(artifacts: seq<LocalArtifact>, n: ArtifactName): (r: Option<LocalArtifact>)
    ensures r.None? <==> forall a | a in artifacts :: a.name != n
    ensures r.Some? ==> exists i | 0 <= i < |artifacts| ::
      artifacts[i] == r.value && r.value.name == n && forall j | 0 <= j < i :: artifacts[j].name != n
  {
    if |artifacts| == 0 then None
    else if artifacts[0].name == n then Some(artifacts[0])
    else
      var r := FindByName(artifacts[1..], n);
      if r.Some? then
        ghost var i :| 0 <= i < |artifacts[1..]| && artifacts[1..][i] == r.value
          && r.value.name == n && forall j | 0 <= j < i :: artifacts[1..][j].name != n;
        assert artifacts[i + 1] == r.value;
        r
      else r
  }

  /**
    `artifact(name)`: the first computed artifact with that name, and otherwise a
    placeholder naming the component and the requested name.
   */
  function Artifact(conf: Configuration, n: ArtifactName): (r: Result<ComponentArtifact, string>)
    ensures r.Ok? <==> conf.artifacts.Resolved?
    ensures r.Ok? && r.value.Present? ==> r.value.artifact in conf.artifacts.artifacts && r.value.artifact.name == n
    ensures r.Ok? && r.value.Missing? ==>
      r.value == Missing(conf.declaration.componentId, n) && forall a | a in conf.artifacts.artifacts :: a.name != n
    ensures r.Ok? && r.value.Present? ==>
      exists i | 0 <= i < |conf.artifacts.artifacts| ::
        conf.artifacts.artifacts[i] == r.value.artifact
        && forall j | 0 <= j < i :: conf.artifacts.artifacts[j].name != n
  {
    match GetArtifacts(conf)
    case Err(e) => Err(e)
    case Ok(artifacts) =>
      var found := FindByName(artifacts, n);
      if found.Some? then
        Ok(Present(found.value))
      else Ok(Missing(conf.declaration.componentId, n))
  }

  // ---------------------------------------------------------------------------
  // Copying under a cached transformer
  // ---------------------------------------------------------------------------

  /**
    The artifact transformer of a copy. It may give different answers on different
    invocations; the second argument is the number of invocations before this one.
   */
  type Transformer = (LocalArtifact, nat) -> LocalArtifact

  /** The memo of a copy and the artifacts the transformer was invoked on, in order. */
  datatype TransformCache = TransformCache(memo: map<LocalArtifact, LocalArtifact>, invoked: seq<LocalArtifact>)

  const EmptyCache := TransformCache(map[], [])

  /**
    The memo holds exactly the invoked artifacts, each invoked once, each mapped to
    what the transformer answered on that invocation.
   */
  ghost predicate CacheValid(c: TransformCache, t: Transformer) {
    && Distinct(c.invoked)
    && (forall a :: a in c.memo <==> a in c.invoked)
    && (forall i | 0 <= i < |c.invoked| :: c.memo[c.invoked[i]] == t(c.invoked[i], i))
  }

  /** Entries of `c` survive unchanged in `d`, and `d` only invoked more. */
  ghost predicate Extends(d: TransformCache, c: TransformCache) {
    && |c.invoked| <= |d.invoked| && d.invoked[..|c.invoked|] == c.invoked
    && forall a | a in c.memo :: a in d.memo && d.memo[a] == c.memo[a]
  }

  lemma EmptyCacheValid(t: Transformer)
    ensures CacheValid(EmptyCache, t)
  {
  }

  /** `computeIfAbsent` on the memo. */
  function Transform(c: TransformCache, t: Transformer, a: LocalArtifact): (r: (LocalArtifact, TransformCache))
    ensures a in r.1.memo && r.0 == r.1.memo[a]
    ensures Extends(r.1, c)
    ensures a in c.memo ==> r.1 == c
    ensures a !in c.memo ==> r.1.invoked == c.invoked + [a] && r.0 == t(a, |c.invoked|)
    ensures CacheValid(c, t) ==> CacheValid(r.1, t)
  {
    if a in c.memo then (c.memo[a], c)
    else
      var b := t(a, |c.invoked|);
      var d := TransformCache(c.memo[a := b], c.invoked + [a]);
      assert d.invoked[..|c.invoked|] == c.invoked;
      assert CacheValid(c, t) ==> a !in c.invoked;
      (b, d)
  }

  lemma ExtendsTransitive(e: TransformCache, d: TransformCache, c: TransformCache)
    requires Extends(e, d) && Extends(d, c)
    ensures Extends(e, c)
  {
    assert e.invoked[..|c.invoked|] == e.invoked[..|d.invoked|][..|c.invoked|];
  }

  /** Transforms a list element by element through the memo. */
  function TransformAll(c: TransformCache, t: Transformer, s: seq<LocalArtifact>): (r: (seq<LocalArtifact>, TransformCache))
    ensures |r.0| == |s|
    ensures forall i | 0 <= i < |s| :: s[i] in r.1.memo && r.0[i] == r.1.memo[s[i]]
    ensures Extends(r.1, c)
    ensures forall a :: a in r.1.memo <==> a in c.memo || a in s
    ensures CacheValid(c, t) ==> CacheValid(r.1, t)
    decreases |s|
  {
    if |s| == 0 then ([], c)
    else
      var (b, d) := Transform(c, t, s[0]);
      var (rest, e) := TransformAll(d, t, s[1..]);
      ExtendsTransitive(e, d, c);
      MappedCons(s, b, rest, d, e);
      ([b] + rest, e)
  }

  /** `s` maps through memo `e` to `[b] + rest` when its head maps to `b` in the earlier memo `d`. */
  lemma MappedCons(s: seq<LocalArtifact>, b: LocalArtifact, rest: seq<LocalArtifact>, d: TransformCache, e: TransformCache)
    requires |s| > 0 && s[0] in d.memo && b == d.memo[s[0]] && Extends(e, d)
    requires |rest| == |s| - 1 && forall i | 0 <= i < |rest| :: s[1..][i] in e.memo && rest[i] == e.memo[s[1..][i]]
    ensures forall i | 0 <= i < |s| :: s[i] in e.memo && ([b] + rest)[i] == e.memo[s[i]]
  {
    forall i | 0 <= i < |s|
      ensures s[i] in e.memo && ([b] + rest)[i] == e.memo[s[i]]
    {
      if i > 0 {
        assert s[i] == s[1..][i - 1];
      }
    }
  }

  /** Each artifact of `v` is in memo `e` and `artifacts` holds what it maps to there. */
  ghost predicate MappedVariant(v: Variant, w: Variant, memo: map<LocalArtifact, LocalArtifact>) {
    && w.name == v.name && w.identifier == v.identifier
    && w.attributes == v.attributes && w.capabilities == v.capabilities
    && |w.artifacts| == |v.artifacts|
    && forall j | 0 <= j < |v.artifacts| :: v.artifacts[j] in memo && w.artifacts[j] == memo[v.artifacts[j]]
  }

  lemma MappedVariantsCons(variants: seq<Variant>, w: Variant, rest: seq<Variant>, d: TransformCache, e: TransformCache)
    requires |variants| > 0 && MappedVariant(variants[0], w, d.memo) && Extends(e, d)
    requires |rest| == |variants| - 1 && forall i | 0 <= i < |rest| :: MappedVariant(variants[1..][i], rest[i], e.memo)
    ensures forall i | 0 <= i < |variants| :: MappedVariant(variants[i], ([w] + rest)[i], e.memo)
  {
    forall i | 0 <= i < |variants|
      ensures MappedVariant(variants[i], ([w] + rest)[i], e.memo)
    {
      if i > 0 {
        assert variants[i] == variants[1..][i - 1];
      }
    }
  }

  function CopyVariants(c: TransformCache, t: Transformer, variants: seq<Variant>): (r: (seq<Variant>, TransformCache))
    ensures |r.0| == |variants|
    ensures forall i | 0 <= i < |variants| :: MappedVariant(variants[i], r.0[i], r.1.memo)
    ensures Extends(r.1, c)
    ensures forall a :: a in r.1.memo <==> a in c.memo || exists i | 0 <= i < |variants| :: a in variants[i].artifacts
    ensures CacheValid(c, t) ==> CacheValid(r.1, t)
    decreases |variants|
  {
    if |variants| == 0 then ([], c)
    else
      var v := variants[0];
      var (artifacts, d) := TransformAll(c, t, v.artifacts);
      var (rest, e) := CopyVariants(d, t, variants[1..]);
      ExtendsTransitive(e, d, c);
      var w := Variant(v.name, v.identifier, v.attributes, v.capabilities, artifacts);
      MappedVariantsCons(variants, w, rest, d, e);
      assert forall i | 1 <= i < |variants| :: variants[i] == variants[1..][i - 1];
      ([w] + rest, e)
  }

  lemma MappedVariantsExtend(variants: seq<Variant>, copies: seq<Variant>, d: TransformCache, e: TransformCache)
    requires |copies| == |variants| && Extends(e, d)
    requires forall i | 0 <= i < |variants| :: MappedVariant(variants[i], copies[i], d.memo)
    ensures forall i | 0 <= i < |variants| :: MappedVariant(variants[i], copies[i], e.memo)
  {
    forall i | 0 <= i < |variants|
      ensures MappedVariant(variants[i], copies[i], e.memo)
    {
      assert MappedVariant(variants[i], copies[i], d.memo);
    }
  }

  /**
    `copy` is `conf` with every artifact, in the computed list and in each variant,
    replaced by what `memo` maps it to; the declaration is the same.
   */
  ghost predicate Copied(conf: Configuration, copy: Configuration, memo: map<LocalArtifact, LocalArtifact>) {
    && copy.declaration == conf.declaration
    && conf.artifacts.Resolved? && copy.artifacts.Resolved?
    && |copy.artifacts.artifacts| == |conf.artifacts.artifacts|
    && (forall j | 0 <= j < |conf.artifacts.artifacts| ::
          conf.artifacts.artifacts[j] in memo && copy.artifacts.artifacts[j] == memo[conf.artifacts.artifacts[j]])
    && |copy.variants| == |conf.variants|
    && (forall i | 0 <= i < |conf.variants| :: MappedVariant(conf.variants[i], copy.variants[i], memo))
  }

  /** A copy made under one memo is still a copy under any memo that extends it. */
  lemma CopiedExtends(conf: Configuration, copy: Configuration, d: TransformCache, e: TransformCache)
    requires Copied(conf, copy, d.memo) && Extends(e, d)
    ensures Copied(conf, copy, e.memo)
  {
    MappedVariantsExtend(conf.variants, copy.variants, d, e);
  }

  /**
    `copy(transformer)` of a configuration whose artifacts are computed: variants
    first, then the artifact list, each artifact mapped through the memo; everything
    else is kept. A configuration whose artifacts are not available cannot be copied.
   */
  function Copy(conf: Configuration, c: TransformCache, t: Transformer): (r: Result<(Configuration, TransformCache), string>)
    ensures r.Ok? <==> conf.artifacts.Resolved?
    ensures r.Ok? ==>
      var (copy, d) := r.value;
      && Copied(conf, copy, d.memo)
      && Extends(d, c)
      && (CacheValid(c, t) ==> CacheValid(d, t))
  {
    match GetArtifacts(conf)
    case Err(e) => Err(e)
    case Ok(artifacts) =>
      var (variants, d) := CopyVariants(c, t, conf.variants);
      var (copied, e) := TransformAll(d, t, artifacts);
      ExtendsTransitive(e, d, c);
      MappedVariantsExtend(conf.variants, variants, d, e);
      Ok((conf.(variants := variants, artifacts := Resolved(copied)), e))
  }

  /** Equal artifacts anywhere in a copy map to equal results, whatever the transformer does. */
  lemma CopyMapsEqualArtifactsAlike(conf: Configuration, c: TransformCache, t: Transformer, i: nat, j: nat)
    requires conf.artifacts.Resolved?
    requires i < |conf.artifacts.artifacts| && j < |conf.artifacts.artifacts|
    requires conf.artifacts.artifacts[i] == conf.artifacts.artifacts[j]
    ensures var copy := Copy(conf, c, t).value.0;
      copy.artifacts.artifacts[i] == copy.artifacts.artifacts[j]
  {
  }
}

=== FILE: plugin_accessors.dfy ===
/**
  Plugin spec accessors of the Kotlin DSL (PluginAccessorsClassPath): the flattening
  of a tree of plugin ids into accessors, one per node, and the naming helpers the
  generated code uses. Bytecode and source emission are outside this model.
 */
module PluginAccessors {
  import Text

  /**
    A node of the plugin id tree. A group covers the ids starting with its path and
    holds its children by extension name, in the map's iteration order.
   */
  datatype PluginTree =
    | PluginGroup(path: seq<string>, plugins: seq<Entry>)
    | PluginSpec(id: string, implementationClass: string)

  /** One entry of an ordered map from extension name to tree. */
  datatype Entry = Entry(extensionName: string, tree: PluginTree)

  /** A type as seen from Kotlin source and from the JVM. */
  datatype TypeSpec = TypeSpec(sourceName: string, internalName: string)

  datatype ExtensionSpec = ExtensionSpec(name: string, receiverType: TypeSpec, returnType: TypeSpec)

  datatype PluginAccessor =
    | ForPlugin(id: string, implementationClass: string, extension: ExtensionSpec)
    | ForGroup(groupId: string, extension: ExtensionSpec)

  /** The package directory of the generated accessors. */
  const KotlinDslPackagePath: string := "org/gradle/kotlin/dsl"

  const PluginDependenciesSpecTypeSpec: TypeSpec :=
    TypeSpec("PluginDependenciesSpec", "org/gradle/plugin/use/PluginDependenciesSpec")

  const PluginDependencySpecTypeSpec: TypeSpec :=
    TypeSpec("PluginDependencySpec", "org/gradle/plugin/use/PluginDependencySpec")

  const GroupTypeSuffix: string := "PluginGroup"

  /** Upper-casing of a character; letters outside `a`..`z` are left as they are. */
  function UppercaseChar(c: char): char {
    if 'a' <= c <= 'z' then (c as int - 32) as char else c
  }

  function UppercaseFirstChar(s: string): (r: string)
    ensures |r| == |s|
    ensures |s| > 0 ==> r[0] == UppercaseChar(s[0]) && r[1..] == s[1..]
  {
    if |s| == 0 then s else [UppercaseChar(s[0])] + s[1..]
  }

  /** The segments of a path, each with its first character upper-cased, run together. */
  function CapitalizedSegments(path: seq<string>): string {
    if |path| == 0 then "" else UppercaseFirstChar(path[0]) + CapitalizedSegments(path[1..])
  }

  /** The class name generated for a group: `org.gradle` becomes `OrgGradlePluginGroup`. */
  function PluginGroupTypeName(path: seq<string>): (r: string)
    ensures Text.EndsWith(r, GroupTypeSuffix)
    ensures r[..|r| - |GroupTypeSuffix|] == CapitalizedSegments(path)
  {
    var r := CapitalizedSegments(path) + GroupTypeSuffix;
    assert r[|r| - |GroupTypeSuffix|..] == GroupTypeSuffix;
    r
  }

  function TypeSpecForPluginGroupType(groupType: string): (r: TypeSpec)
    ensures r.sourceName == groupType
    ensures r.internalName == KotlinDslPackagePath + "/" + groupType
  {
    TypeSpec(groupType, KotlinDslPackagePath + "/" + groupType)
  }

  /** A type spec that some group of the tree generates. */
  predicate IsGroupTypeSpec(t: TypeSpec) {
    Text.EndsWith(t.sourceName, GroupTypeSuffix)
    && t.internalName == KotlinDslPackagePath + "/" + t.sourceName
  }

  /** The accessors of one tree node, given the type its accessor extends. */
  function AccessorsOfEntry(e: Entry, extendedType: TypeSpec): (r: seq<PluginAccessor>)
    ensures ExtensionNames(r) == EntryNames(e)
    ensures ImplementationClassesExposedBy(r) == EntryLeafClasses(e)
    decreases e, 1
  {
    match e.tree
    case PluginGroup(path, plugins) =>
      var groupTypeSpec := TypeSpecForPluginGroupType(PluginGroupTypeName(path));
      var head := [ForGroup(Text.Join(path, "."), ExtensionSpec(e.extensionName, extendedType, groupTypeSpec))];
      var children := AccessorsFor(plugins, groupTypeSpec);
      ExtensionNamesOfConcat(head, children);
      ImplementationClassesOfConcat(head, children);
      head + children
    case PluginSpec(id, implementationClass) =>
      [ForPlugin(id, implementationClass, ExtensionSpec(e.extensionName, extendedType, PluginDependencySpecTypeSpec))]
  }

  /**
    `pluginAccessorsFor`: walks the trees in map order, yielding for a group its own
    accessor and then those of its children, and for a plugin one accessor. So there
    is one accessor per node, in pre-order, and the plugin accessors expose exactly
    the leaves' implementation classes, left to right.
   */
  function AccessorsFor(trees: seq<Entry>, extendedType: TypeSpec): (r: seq<PluginAccessor>)
    ensures ExtensionNames(r) == PreorderNames(trees)
    ensures ImplementationClassesExposedBy(r) == LeafClasses(trees)
    decreases trees, 0
  {
    if |trees| == 0 then []
    else
      var first := AccessorsOfEntry(trees[0], extendedType);
      var rest := AccessorsFor(trees[1..], extendedType);
      ExtensionNamesOfConcat(first, rest);
      ImplementationClassesOfConcat(first, rest);
      first + rest
  }

  /** `pluginDependenciesSpecOf`: how generated code reaches the plugins block from a receiver. */
  function PluginDependenciesSpecOf(extendedType: string): (r: string)
    ensures r == "this" <==> extendedType == "PluginDependenciesSpec"
    ensures r == "this" || r == "plugins"
  {
    if extendedType == "PluginDependenciesSpec" then "this" else "plugins"
  }

  /** The number of plugin accessors among `accessors`. */
  function PluginCount(accessors: seq<PluginAccessor>): (r: nat)
    ensures r <= |accessors|
  {
    if |accessors| == 0 then 0
    else (if accessors[0].ForPlugin? then 1 else 0) + PluginCount(accessors[1..])
  }

  /**
    `pluginImplementationClassesExposedBy`: the implementation classes of plugin
    accessors, in order: one class per plugin accessor, the k-th being that of the
    k-th plugin accessor.
   */
  function ImplementationClassesExposedBy(accessors: seq<PluginAccessor>): (r: seq<string>)
    ensures |r| <= |accessors|
    ensures |r| == PluginCount(accessors)
    ensures forall i | 0 <= i < |accessors| && accessors[i].ForPlugin? ::
      PluginCount(accessors[..i]) < |r| && r[PluginCount(accessors[..i])] == accessors[i].implementationClass
    ensures forall c :: c in r <==> exists a | a in accessors :: a.ForPlugin? && a.implementationClass == c
  {
    if |accessors| == 0 then []
    else
      var rest := ImplementationClassesExposedBy(accessors[1..]);
      assert forall i | 0 < i < |accessors| :: accessors[..i][1..] == accessors[1..][..i - 1];
      assert forall i | 0 < i < |accessors| :: accessors[i] == accessors[1..][i - 1];
      if accessors[0].ForPlugin? then [accessors[0].implementationClass] + rest
      else rest
  }

  // ---------------------------------------------------------------------------
  // Reference views of a tree, in pre-order
  // ---------------------------------------------------------------------------

  /** The extension names of all nodes, each before those of its children. */
  function PreorderNames(trees: seq<Entry>): seq<string>
    decreases trees, 0
  {
    if |trees| == 0 then [] else EntryNames(trees[0]) + PreorderNames(trees[1..])
  }

  function EntryNames(e: Entry): seq<string>
    decreases e, 1
  {
    match e.tree
    case PluginGroup(_, plugins) => [e.extensionName] + PreorderNames(plugins)
    case PluginSpec(_, _) => [e.extensionName]
  }

  /** The implementation classes of all plugin leaves, left to right. */
  function LeafClasses(trees: seq<Entry>): seq<string>
    decreases trees, 0
  {
    if |trees| == 0 then [] else EntryLeafClasses(trees[0]) + LeafClasses(trees[1..])
  }

  function EntryLeafClasses(e: Entry): seq<string>
    decreases e, 1
  {
    match e.tree
    case PluginGroup(_, plugins) => LeafClasses(plugins)
    case PluginSpec(_, implementationClass) => [implementationClass]
  }

  function ExtensionNames(accessors: seq<PluginAccessor>): (r: seq<string>)
    ensures |r| == |accessors|
    ensures forall i | 0 <= i < |accessors| :: r[i] == accessors[i].extension.name
  {
    seq(|accessors|, i requires 0 <= i < |accessors| => accessors[i].extension.name)
  }

  // ---------------------------------------------------------------------------
  // Properties
  // ---------------------------------------------------------------------------

  lemma {:induction false} ImplementationClassesOfConcat(a: seq<PluginAccessor>, b: seq<PluginAccessor>)
    ensures ImplementationClassesExposedBy(a + b)
         == ImplementationClassesExposedBy(a) + ImplementationClassesExposedBy(b)
    decreases |a|
  {
    if |a| > 0 {
      assert (a + b)[0] == a[0];
      assert (a + b)[1..] == a[1..] + b;
      ImplementationClassesOfConcat(a[1..], b);
    } else {
      assert a + b == b;
    }
  }

  lemma ExtensionNamesOfConcat(a: seq<PluginAccessor>, b: seq<PluginAccessor>)
    ensures ExtensionNames(a + b) == ExtensionNames(a) + ExtensionNames(b)
  {
    assert forall i | 0 <= i < |a + b| :: ExtensionNames(a + b)[i] == (ExtensionNames(a) + ExtensionNames(b))[i];
  }

  /** What every accessor produced for a tree looks like. */
  ghost predicate WellShaped(a: PluginAccessor, extendedType: TypeSpec) {
    && (a.extension.receiverType == extendedType || IsGroupTypeSpec(a.extension.receiverType))
    && (a.ForPlugin? ==> a.extension.returnType == PluginDependencySpecTypeSpec)
    && (a.ForGroup? ==> IsGroupTypeSpec(a.extension.returnType))
  }

  /**
    Plugin accessors return `PluginDependencySpec`, group accessors return their
    group type, and every receiver is the extended type or a group type.
   */
  lemma {:induction false} AccessorsAreWellShaped(trees: seq<Entry>, extendedType: TypeSpec)
    ensures forall a | a in AccessorsFor(trees, extendedType) :: WellShaped(a, extendedType)
    decreases trees, 0
  {
    if |trees| > 0 {
      EntryAccessorsAreWellShaped(trees[0], extendedType);
      AccessorsAreWellShaped(trees[1..], extendedType);
    }
  }

  lemma {:induction false} EntryAccessorsAreWellShaped(e: Entry, extendedType: TypeSpec)
    ensures forall a | a in AccessorsOfEntry(e, extendedType) :: WellShaped(a, extendedType)
    decreases e, 1
  {
    match e.tree
    case PluginGroup(path, plugins) =>
      var groupTypeSpec := TypeSpecForPluginGroupType(PluginGroupTypeName(path));
      assert IsGroupTypeSpec(groupTypeSpec);
      AccessorsAreWellShaped(plugins, groupTypeSpec);
      forall a | a in AccessorsFor(plugins, groupTypeSpec)
        ensures WellShaped(a, extendedType)
      {
        assert WellShaped(a, groupTypeSpec);
      }
    case PluginSpec(_, _) =>
  }

  /** A group accessor carries its dotted path as id and precedes its children's accessors. */
  lemma GroupPrecedesChildren(name: string, path: seq<string>, plugins: seq<Entry>, rest: seq<Entry>, extendedType: TypeSpec)
    ensures var groupTypeSpec := TypeSpecForPluginGroupType(PluginGroupTypeName(path));
      AccessorsFor([Entry(name, PluginGroup(path, plugins))] + rest, extendedType)
      == [ForGroup(Text.Join(path, "."), ExtensionSpec(name, extendedType, groupTypeSpec))]
         + AccessorsFor(plugins, groupTypeSpec)
         + AccessorsFor(rest, extendedType)
  {
    var trees := [Entry(name, PluginGroup(path, plugins))] + rest;
    assert trees[1..] == rest;
  }

  /** A plugin leaf yields exactly one accessor: its id and class, returning a dependency spec. */
  lemma PluginLeafAccessor(name: string, id: string, implementationClass: string, rest: seq<Entry>, extendedType: TypeSpec)
    ensures AccessorsFor([Entry(name, PluginSpec(id, implementationClass))] + rest, extendedType)
      == [ForPlugin(id, implementationClass, ExtensionSpec(name, extendedType, PluginDependencySpecTypeSpec))]
         + AccessorsFor(rest, extendedType)
  {
    var trees := [Entry(name, PluginSpec(id, implementationClass))] + rest;
    assert trees[1..] == rest;
  }

  /**
    With the default receiver, generated code refers to the plugins block as `this`
    exactly for top-level accessors, and through the `plugins` field otherwise.
   */
  lemma PluginsReferenceFollowsReceiver(trees: seq<Entry>)
    ensures forall a | a in AccessorsFor(trees, PluginDependenciesSpecTypeSpec) ::
      PluginDependenciesSpecOf(a.extension.receiverType.sourceName)
      == (if a.extension.receiverType == PluginDependenciesSpecTypeSpec then "this" else "plugins")
  {
    AccessorsAreWellShaped(trees, PluginDependenciesSpecTypeSpec);
    forall a | a in AccessorsFor(trees, PluginDependenciesSpecTypeSpec)
      ensures PluginDependenciesSpecOf(a.extension.receiverType.sourceName)
           == (if a.extension.receiverType == PluginDependenciesSpecTypeSpec then "this" else "plugins")
    {
      var t := a.extension.receiverType;
      if t != PluginDependenciesSpecTypeSpec {
        assert IsGroupTypeSpec(t);
        var n := t.sourceName;
        assert n[|n| - 1] == 'p';
        assert "PluginDependenciesSpec"[21] == 'c';
      }
    }
  }

  lemma GroupTypeNameExample()
    ensures PluginGroupTypeName(["org", "gradle"]) == "OrgGradlePluginGroup"
  {
    OrgGradleSegments();
    assert "OrgGradle" + GroupTypeSuffix == "OrgGradlePluginGroup";
  }

  lemma OrgGradleSegments()
    ensures CapitalizedSegments(["org", "gradle"]) == "OrgGradle"
  {
    assert UppercaseFirstChar("org") == "Org";
    assert UppercaseFirstChar("gradle") == "Gradle";
    assert ["org", "gradle"][1..] == ["gradle"] && ["gradle"][1..] == [];
    assert CapitalizedSegments(["gradle"]) == "Gradle" + "";
  }
}

=== FILE: sample_include.dfy ===
/**
  The documentation include processor for samples (SampleIncludeProcessor): which
  include targets it handles, the attributes it requires, and the pure text
  processing applied to each included source file — syntax detection from the file
  suffix, removal of bracket groups from a file declaration, tag parsing, tagged
  region filtering and common-indentation removal.

  Regular expressions are modelled by hand-written predicates that accept exactly
  the strings the source's patterns match, over the characters those patterns name.
 */
module SampleInclude {
  import opened Text
  import opened Wrappers

  const SampleTarget: string := "sample"

  /** The processor takes an include target only when it is `sample`. */
  function Handles(target: string): (r: bool)
    ensures r <==> target == "sample"
  {
    target == SampleTarget
  }

  // ---------------------------------------------------------------------------
  // Attributes of an include directive
  // ---------------------------------------------------------------------------

  /** What `process` extracts from the directive before reading any file. */
  datatype SampleRequest = SampleRequest(sampleBaseDir: string, sampleDir: string, files: seq<string>)

  const MissingAttributesMessage: string :=
    "Both the 'dir' and 'files' attributes are required to include a sample"

  /**
    The attribute check at the start of `process`: both `dir` and `files` must be
    present, otherwise the processor fails with an illegal-state error. The base
    directory comes from the document attribute `samples-dir`, defaulting to `.`,
    and `files` is a `;`-separated list.
   */
  function ReadRequest(documentAttributes: map<string, string>, attributes: map<string, string>): (r: Result<SampleRequest, string>)
    ensures r.Err? <==> "dir" !in attributes || "files" !in attributes
    ensures r.Err? ==> r.error == MissingAttributesMessage
    ensures r.Ok? ==> r.value.sampleDir == attributes["dir"]
    ensures r.Ok? ==> r.value.files == JavaSplit(attributes["files"], OnChar(';'))
    ensures r.Ok? && "samples-dir" !in documentAttributes ==> r.value.sampleBaseDir == "."
    ensures r.Ok? && "samples-dir" in documentAttributes ==> r.value.sampleBaseDir == documentAttributes["samples-dir"]
  {
    if "dir" !in attributes || "files" !in attributes then
      Err(MissingAttributesMessage)
    else
      var baseDir := if "samples-dir" in documentAttributes then documentAttributes["samples-dir"] else ".";
      Ok(SampleRequest(baseDir, attributes["dir"], JavaSplit(attributes["files"], OnChar(';'))))
  }

  // ---------------------------------------------------------------------------
  // Source syntax
  // ---------------------------------------------------------------------------

  /** File suffixes whose highlighting syntax has a different name. */
  const SuffixToSyntax: map<string, string> :=
    map["gradle" := "groovy", "kt" := "kotlin", "kts" := "kotlin",
        "py" := "python", "sh" := "bash", "rb" := "ruby"]

  function SyntaxForSuffix(suffix: string): string {
    if suffix in SuffixToSyntax then SuffixToSyntax[suffix] else suffix
  }

  /**
    The highlighting syntax for a file: the one its suffix after the last `.` maps
    to, or `txt` when the name has no dot past its first character.
   */
  function SourceSyntax(fileName: string): (r: string)
    ensures (forall i | 0 < i < |fileName| :: fileName[i] != '.') ==> r == "txt"
    ensures forall k | 0 < k < |fileName| && fileName[k] == '.' ::
      (forall j | k < j < |fileName| :: fileName[j] != '.') ==> r == SyntaxForSuffix(fileName[k + 1..])
  {
    var i := LastIndexOf(fileName, '.');
    if i > 0 then SyntaxForSuffix(fileName[i + 1..]) else "txt"
  }

  /** A name with a non-empty stem and an extension free of dots gets the extension's syntax. */
  lemma SourceSyntaxOfExtension(stem: string, extension: string)
    requires |stem| > 0
    requires forall i | 0 <= i < |extension| :: extension[i] != '.'
    ensures SourceSyntax(stem + "." + extension) == SyntaxForSuffix(extension)
  {
    var name := stem + "." + extension;
    assert name[|stem|] == '.';
    assert forall j | |stem| < j < |name| :: name[j] == extension[j - |stem| - 1];
    assert LastIndexOf(name, '.') == |stem|;
    assert name[|stem| + 1..] == extension;
  }

  lemma SourceSyntaxExamples()
    ensures SourceSyntax("settings.gradle.kts") == "kotlin"
    ensures SourceSyntax("build.gradle") == "groovy"
    ensures SourceSyntax("Main.java") == "java"
    ensures SourceSyntax(".gitignore") == "txt"
  {
    KotlinScriptExample();
    GroovyExample();
    JavaExample();
    DotFileExample();
  }

  lemma KotlinScriptExample()
    ensures SourceSyntax("settings.gradle.kts") == "kotlin"
  {
    var name := "settings.gradle.kts";
    MappedSuffix("kts");
    assert name[15] == '.' && name[16..] == "kts";
    assert forall j | 15 < j < |name| :: name[j] != '.';
  }

  lemma GroovyExample()
    ensures SourceSyntax("build.gradle") == "groovy"
  {
    var name := "build.gradle";
    MappedSuffix("gradle");
    assert name[5] == '.' && name[6..] == "gradle";
    assert forall j | 5 < j < |name| :: name[j] != '.';
  }

  lemma JavaExample()
    ensures SourceSyntax("Main.java") == "java"
  {
    var name := "Main.java";
    JavaSuffixUnmapped();
    assert name[4] == '.' && name[5..] == "java";
    assert forall j | 4 < j < |name| :: name[j] != '.';
  }

  lemma DotFileExample()
    ensures SourceSyntax(".gitignore") == "txt"
  {
    var name := ".gitignore";
    assert forall i | 0 < i < |name| :: name[i] != '.';
  }

  lemma MappedSuffix(suffix: string)
    requires suffix in SuffixToSyntax
    ensures SyntaxForSuffix(suffix) == SuffixToSyntax[suffix]
  {
  }

  lemma JavaSuffixUnmapped()
    ensures SyntaxForSuffix("java") == "java"
  {
    assert "java"[0] == 'j';
    assert "java" !in SuffixToSyntax;
  }

  // ---------------------------------------------------------------------------
  // Bracket groups in a file declaration
  // ---------------------------------------------------------------------------

  /**
    Replacing every match of `\[[^]]*]` by the empty string, scanning left to
    right: a `[` starts a group that ends at the next `]`; a `[` with no `]`
    after it is kept as text.
   */
  function RemoveBracketGroups(s: string): (r: string)
    ensures |r| <= |s|
    ensures forall c | c in r :: c in s
    decreases |s|
  {
    if |s| == 0 then ""
    else if s[0] == '[' && IndexOf(s, ']') > 0 then
      var t := s[IndexOf(s, ']') + 1..];
      assert forall c | c in t :: c in s;
      RemoveBracketGroups(t)
    else
      var rest := RemoveBracketGroups(s[1..]);
      assert forall c | c in s[1..] :: c in s;
      [s[0]] + rest
  }

  /** The declaration `parseSourceFilePath` turns into a path. */
  function SourceFilePath(fileDeclaration: string): string {
    RemoveBracketGroups(fileDeclaration)
  }

  /** No `[` is followed, anywhere later, by a `]`. */
  predicate NoBracketGroup(r: string) {
    forall i, j | 0 <= i < j < |r| :: r[i] == '[' ==> r[j] != ']'
  }

  /** No complete bracket group survives: no kept `[` is followed by a `]`. */
  lemma {:induction false} NoBracketGroupRemains(s: string)
    ensures NoBracketGroup(RemoveBracketGroups(s))
    decreases |s|
  {
    var r := RemoveBracketGroups(s);
    if |s| == 0 {
    } else if s[0] == '[' && IndexOf(s, ']') > 0 {
      NoBracketGroupRemains(s[IndexOf(s, ']') + 1..]);
      assert r == RemoveBracketGroups(s[IndexOf(s, ']') + 1..]);
    } else {
      var rest := RemoveBracketGroups(s[1..]);
      NoBracketGroupRemains(s[1..]);
      assert r == [s[0]] + rest;
      if s[0] == '[' {
        assert IndexOf(s, ']') < 0;
        assert ']' !in s;
        forall j | 0 <= j < |rest|
          ensures rest[j] != ']'
        {
          assert rest[j] in rest;
        }
      }
      forall i, j | 0 <= i < j < |r| && r[i] == '['
        ensures r[j] != ']'
      {
        assert r[j] == rest[j - 1];
        if i > 0 {
          assert r[i] == rest[i - 1];
          assert rest[i - 1] == '[' ==> rest[j - 1] != ']';
        } else {
          assert s[0] == '[';
        }
      }
    }
  }

  /** Text with no `[` is left exactly as it is. */
  lemma {:induction false} NoOpeningBracketUnchanged(s: string)
    requires forall i | 0 <= i < |s| :: s[i] != '['
    ensures RemoveBracketGroups(s) == s
    decreases |s|
  {
    if |s| > 0 {
      NoOpeningBracketUnchanged(s[1..]);
      assert [s[0]] + s[1..] == s;
    }
  }

  /** A declaration `path[...]` whose path has no `[` and whose group has no `]` yields the path. */
  lemma {:induction false} TrailingGroupRemoved(path: string, group: string)
    requires forall i | 0 <= i < |path| :: path[i] != '['
    requires forall i | 0 <= i < |group| :: group[i] != ']'
    ensures RemoveBracketGroups(path + "[" + group + "]") == path
    decreases |path|
  {
    var s := path + "[" + group + "]";
    if |path| == 0 {
      assert s == "[" + group + "]";
      assert s[|s| - 1] == ']';
      assert forall j | 0 <= j < |group| :: s[j + 1] == group[j];
      assert IndexOf(s, ']') == |s| - 1;
      assert s[|s|..] == "";
    } else {
      TrailingGroupRemoved(path[1..], group);
      assert s[1..] == path[1..] + "[" + group + "]";
      assert s[0] == path[0];
      assert [path[0]] + path[1..] == path;
    }
  }

  // ---------------------------------------------------------------------------
  // Tags of a file declaration
  // ---------------------------------------------------------------------------

  /**
    Where the tag list of a `[tag=...]` / `[tags=...]` group begins if a group
    opening starts at `k`: just after the `=`, or -1 when no opening starts there.
   */
  function TagListStartAt(s: string, k: nat): int {
    if OccursAt(s, "[tags=", k) then k + 6
    else if OccursAt(s, "[tag=", k) then k + 5
    else -1
  }

  /** No character of `s` is a line terminator, so `.` can match each of them. */
  predicate SingleLine(s: string) {
    forall i | 0 <= i < |s| :: !IsLineTerminator(s[i])
  }

  /**
    An opening at `k` can take part in a whole-string match: some `]` lies at or
    after its tag list, and no line terminator stops `.*` anywhere in the text.
   */
  predicate OpensTagGroup(s: string, k: nat) {
    var start := TagListStartAt(s, k);
    start >= 0 && LastIndexOf(s, ']') >= start && SingleLine(s)
  }

  /**
    The last opening that can take part in a match of `.*\[tags?=(.*)].*`: the
    leading `.*` is greedy, so the matcher settles on the rightmost candidate.
   */
  function LastTagGroup(s: string, k: nat): (r: Option<nat>)
    requires k <= |s|
    ensures r.Some? ==> r.value < k && OpensTagGroup(s, r.value)
    ensures r.Some? ==> forall j | r.value < j < k :: !OpensTagGroup(s, j)
    ensures r.None? ==> forall j | 0 <= j < k :: !OpensTagGroup(s, j)
  {
    if k == 0 then None
    else if OpensTagGroup(s, k - 1) then Some(k - 1)
    else LastTagGroup(s, k - 1)
  }

  /**
    `parseTags`: the comma-separated list captured by the whole-string match of
    `.*\[tags?=(.*)].*`, or no tags when the declaration does not match. The
    captured text runs from the `=` to the last `]` of the declaration.
   */
  function ParseTags(fileDeclaration: string): (r: seq<string>)
    ensures r != [] ==> SingleLine(fileDeclaration)
    ensures r != [] ==> exists k | 0 <= k < |fileDeclaration| :: OpensTagGroup(fileDeclaration, k)
  {
    match LastTagGroup(fileDeclaration, |fileDeclaration|)
    case None => []
    case Some(k) =>
      var start := TagListStartAt(fileDeclaration, k);
      var stop := LastIndexOf(fileDeclaration, ']');
      JavaSplit(fileDeclaration[start..stop], OnChar(','))
  }

  /** A declaration with no `[tag` in it has no tags. */
  lemma NoTagGroupNoTags(s: string)
    requires forall k | 0 <= k <= |s| :: !OccursAt(s, "[tag", k)
    ensures ParseTags(s) == []
  {
    forall k | 0 <= k < |s|
      ensures !OpensTagGroup(s, k)
    {
      assert "[tags="[..4] == "[tag" && "[tag="[..4] == "[tag";
      if OccursAt(s, "[tags=", k) {
        OccursAtPrefix(s, "[tags=", "[tag", k);
      }
      if OccursAt(s, "[tag=", k) {
        OccursAtPrefix(s, "[tag=", "[tag", k);
      }
    }
    assert LastTagGroup(s, |s|).None?;
  }

  /** The case a greedy reading without line terminators would get wrong. */
  lemma TagGroupAfterNewlineIgnored(list: string)
    ensures ParseTags("f\n[tags=" + list + "]") == []
  {
    assert ("f\n[tags=" + list + "]")[1] == '\n';
  }

  lemma OccursAtPrefix(s: string, p: string, q: string, k: int)
    requires OccursAt(s, p, k) && |q| <= |p| && p[..|q|] == q
    ensures OccursAt(s, q, k)
  {
    assert s[k..k + |q|] == s[k..k + |p|][..|q|];
  }

  /**
    `path[tags=a,b]`-shaped declarations on one line yield the split list, whatever
    brackets the path holds.
   */
  lemma TagsOfDeclaration(path: string, list: string)
    requires forall i | 0 <= i < |path| :: !IsLineTerminator(path[i])
    requires forall i | 0 <= i < |list| :: list[i] != '[' && list[i] != ']' && !IsLineTerminator(list[i])
    ensures ParseTags(path + "[tags=" + list + "]") == JavaSplit(list, OnChar(','))
  {
    var s := path + "[tags=" + list + "]";
    var p := |path|;
    assert s[p..p + 6] == "[tags=";
    assert LastIndexOf(s, ']') == |s| - 1;
    forall i | 0 <= i < |s|
      ensures !IsLineTerminator(s[i])
    {
      if i < p {
        assert s[i] == path[i];
      } else if i < p + 6 {
        assert s[i] == "[tags="[i - p];
      } else if i < |s| - 1 {
        assert s[i] == list[i - p - 6];
      }
    }
    assert OpensTagGroup(s, p);
    forall j | p < j < |s|
      ensures !OpensTagGroup(s, j)
    {
      if j < p + 6 {
        assert s[j] == "[tags="[j - p];
      } else if j < |s| - 1 {
        assert s[j] == list[j - p - 6];
      }
      NoOpeningWithoutBracket(s, j);
    }
    assert LastTagGroup(s, |s|) == Some(p) by {
      LastTagGroupIsRightmost(s, |s|, p);
    }
    assert s[p + 6..|s| - 1] == list;
  }

  /** Every group opening starts with a `[`. */
  lemma NoOpeningWithoutBracket(s: string, j: nat)
    requires j < |s| && s[j] != '['
    ensures !OpensTagGroup(s, j)
  {
    OccursAtStartsWithFirst(s, "[tags=", j);
    OccursAtStartsWithFirst(s, "[tag=", j);
  }

  lemma OccursAtStartsWithFirst(s: string, sub: string, k: nat)
    requires |sub| > 0
    ensures OccursAt(s, sub, k) ==> s[k] == sub[0]
  {
    if OccursAt(s, sub, k) {
      assert s[k..k + |sub|][0] == s[k];
    }
  }

  lemma {:induction false} LastTagGroupIsRightmost(s: string, k: nat, p: nat)
    requires p < k <= |s|
    requires OpensTagGroup(s, p)
    requires forall j | p < j < k :: !OpensTagGroup(s, j)
    ensures LastTagGroup(s, k) == Some(p)
    decreases k
  {
    if k - 1 != p {
      LastTagGroupIsRightmost(s, k - 1, p);
    }
  }

  lemma ExampleDeclaration()
    ensures "f" + "[tags=" + "a,b" + "]" == "f[tags=a,b]"
  {
  }

  lemma ParseTagsExample()
    ensures ParseTags("f[tags=a,b]") == ["a", "b"]
  {
    var list := "a,b";
    assert list[0] == 'a' && list[1] == ',' && list[2] == 'b';
    TagsOfDeclaration("f", list);
    assert ParseTags("f" + "[tags=" + list + "]") == JavaSplit(list, OnChar(','));
    SplitPairExample();
    assert JavaSplit(list, OnChar(',')) == ["a", "b"];
    ExampleDeclaration();
  }

  /** A declaration without any `[` has no tags. */
  lemma NoOpeningBracketNoTags(s: string)
    requires forall i | 0 <= i < |s| :: s[i] != '['
    ensures ParseTags(s) == []
  {
    forall k | 0 <= k < |s|
      ensures !OpensTagGroup(s, k)
    {
      assert s[k] != '[';
    }
    assert LastTagGroup(s, |s|).None?;
  }

  // ---------------------------------------------------------------------------
  // Tag marker lines
  // ---------------------------------------------------------------------------

  /** `\s` in a Java regular expression. */
  predicate IsRegexSpace(c: char) {
    c == ' ' || c == '\t' || c == '\n' || c == '\U{000B}' || c == '\U{000C}' || c == '\r'
  }

  /** Characters `.` does not match in a Java regular expression (line terminators). */
  predicate IsLineTerminator(c: char) {
    c == '\n' || c == '\r' || c == '\U{0085}' || c == '\U{2028}' || c == '\U{2029}'
  }

  function TrimTrailingSpace(s: string): (r: string)
    ensures |r| <= |s| && r == s[..|r|]
    ensures |r| > 0 ==> !IsRegexSpace(r[|r| - 1])
    ensures forall i | |r| <= i < |s| :: IsRegexSpace(s[i])
  {
    if |s| > 0 && IsRegexSpace(s[|s| - 1]) then TrimTrailingSpace(s[..|s| - 1]) else s
  }

  function TrimLeadingSpace(s: string): (r: string)
    ensures |r| <= |s| && r == s[|s| - |r|..]
    ensures |r| > 0 ==> !IsRegexSpace(r[0])
  {
    if |s| > 0 && IsRegexSpace(s[0]) then TrimLeadingSpace(s[1..]) else s
  }

  predicate NoSpace(s: string) {
    forall i | 0 <= i < |s| :: !IsRegexSpace(s[i])
  }

  /** A `tag::` or `end::` directive starts at `p`. */
  predicate DirectiveAt(s: string, p: int) {
    OccursAt(s, "tag::", p) || OccursAt(s, "end::", p)
  }

  /** A whole-line match of `.*(tag|end)::(\S+)\[]\s*`. */
  predicate IsPlainMarker(line: string) {
    var t := TrimTrailingSpace(line);
    EndsWith(t, "[]")
    && exists p | 0 <= p < |t| - 7 ::
         DirectiveAt(t, p)
         && NoSpace(t[p + 5..|t| - 2])
         && forall i | 0 <= i < p :: !IsLineTerminator(t[i])
  }

  /** A whole-line match of `\s*<!--\s*(tag|end)::(\S+)\[]\s*-->`. */
  predicate IsHtmlMarker(line: string) {
    var a := TrimLeadingSpace(line);
    StartsWith(a, "<!--")
    && var b := TrimLeadingSpace(a[4..]);
       EndsWith(b, "-->")
       && var c := TrimTrailingSpace(b[..|b| - 3]);
          |c| >= 8 && DirectiveAt(c, 0) && EndsWith(c, "[]") && NoSpace(c[5..|c| - 2])
  }

  /** The marker test for a syntax: HTML comments for `html` and `xml`, any text otherwise. */
  predicate IsMarker(line: string, htmlLike: bool) {
    if htmlLike then IsHtmlMarker(line) else IsPlainMarker(line)
  }

  function HtmlLike(syntax: string): bool {
    syntax == "html" || syntax == "xml"
  }

  lemma PlainMarkerExample()
    ensures IsPlainMarker("# tag::a[]")
  {
    var t := "# tag::a[]";
    assert TrimTrailingSpace(t) == t;
    assert t[2..7] == "tag::";
    assert DirectiveAt(t, 2);
    assert t[7..8] == "a";
    assert NoSpace(t[7..|t| - 2]);
  }

  lemma PlainLineExample()
    ensures !IsPlainMarker("x = 1")
  {
    var t := "x = 1";
    assert TrimTrailingSpace(t) == t;
  }

  // ---------------------------------------------------------------------------
  // Tagged region filtering
  // ---------------------------------------------------------------------------

  function OpenDirective(tag: string): string {
    "tag::" + tag + "[]"
  }

  function EndDirective(tag: string): string {
    "end::" + tag + "[]"
  }

  /** `determineActiveTag`: the first listed tag whose opening directive the line contains. */
  function DetermineActiveTag(line: string, tags: seq<string>): (r: Option<string>)
    ensures r.None? <==> forall j | 0 <= j < |tags| :: !Contains(line, OpenDirective(tags[j]))
  {
    if |tags| == 0 then None
    else if Contains(line, OpenDirective(tags[0])) then Some(tags[0])
    else
      assert forall j | 1 <= j < |tags| :: tags[j] == tags[1..][j - 1];
      DetermineActiveTag(line, tags[1..])
  }

  /** The tag chosen is the first listed one whose opening directive the line contains. */
  lemma {:induction false} ActiveTagIsFirstMatch(line: string, tags: seq<string>)
    requires DetermineActiveTag(line, tags).Some?
    ensures exists k | 0 <= k < |tags| ::
      && tags[k] == DetermineActiveTag(line, tags).value
      && Contains(line, OpenDirective(tags[k]))
      && forall j | 0 <= j < k :: !Contains(line, OpenDirective(tags[j]))
  {
    if !Contains(line, OpenDirective(tags[0])) {
      ActiveTagIsFirstMatch(line, tags[1..]);
      var k :| 0 <= k < |tags[1..]| && tags[1..][k] == DetermineActiveTag(line, tags[1..]).value
        && Contains(line, OpenDirective(tags[1..][k]))
        && forall j | 0 <= j < k :: !Contains(line, OpenDirective(tags[1..][j]));
      assert tags[k + 1] == tags[1..][k];
      forall j | 0 <= j < k + 1
        ensures !Contains(line, OpenDirective(tags[j]))
      {
        if j > 0 {
          assert tags[j] == tags[1..][j - 1];
        }
      }
    }
  }

  /**
    The tag-region state machine: `active` is the tag whose region is open. Outside a
    region a line can only open one; inside, a line with the region's end directive
    closes it, marker lines are dropped, and every other line is kept.
   */
  function RegionLines(lines: seq<string>, tags: seq<string>, htmlLike: bool, active: Option<string>): seq<string>
    decreases |lines|
  {
    if |lines| == 0 then []
    else
      var line := lines[0];
      match active
      case None => RegionLines(lines[1..], tags, htmlLike, DetermineActiveTag(line, tags))
      case Some(t) =>
        if Contains(line, EndDirective(t)) then RegionLines(lines[1..], tags, htmlLike, None)
        else if IsMarker(line, htmlLike) then RegionLines(lines[1..], tags, htmlLike, active)
        else [line] + RegionLines(lines[1..], tags, htmlLike, active)
  }

  /** The lines that are not markers, in their order. */
  function NonMarkers(lines: seq<string>, htmlLike: bool): (r: seq<string>)
    ensures IsSubsequence(r, lines)
    ensures forall l :: l in r <==> l in lines && !IsMarker(l, htmlLike)
    ensures forall l :: multiset(r)[l] == if IsMarker(l, htmlLike) then 0 else multiset(lines)[l]
  {
    if |lines| == 0 then []
    else
      assert lines == [lines[0]] + lines[1..];
      var rest := NonMarkers(lines[1..], htmlLike);
      if IsMarker(lines[0], htmlLike) then
        SubsequenceOfTail(rest, lines);
        rest
      else
        assert ([lines[0]] + rest)[1..] == rest;
        [lines[0]] + rest
  }

  /** The lines run together, each followed by `newline`, in order. */
  function TerminateEach(lines: seq<string>, newline: string): string {
    if |lines| == 0 then "" else lines[0] + newline + TerminateEach(lines[1..], newline)
  }

  /**
    Terminating two runs of lines one after the other is terminating each: so the
    text is every line followed by `newline`, in order, and nothing else.
   */
  lemma {:induction false} TerminateEachAppend(a: seq<string>, b: seq<string>, newline: string)
    ensures TerminateEach(a + b, newline) == TerminateEach(a, newline) + TerminateEach(b, newline)
    decreases |a|
  {
    if |a| == 0 {
      assert a + b == b;
    } else {
      assert (a + b)[1..] == a[1..] + b;
      TerminateEachAppend(a[1..], b, newline);
    }
  }

  /** One step of the state machine on line `i`. */
  lemma RegionLinesStep(lines: seq<string>, i: nat, tags: seq<string>, htmlLike: bool, active: Option<string>)
    requires i < |lines|
    ensures var here := RegionLines(lines[i..], tags, htmlLike, active);
      var line := lines[i];
      && (active.None? ==> here == RegionLines(lines[i + 1..], tags, htmlLike, DetermineActiveTag(line, tags)))
      && (active.Some? && Contains(line, EndDirective(active.value)) ==>
            here == RegionLines(lines[i + 1..], tags, htmlLike, None))
      && (active.Some? && !Contains(line, EndDirective(active.value)) && IsMarker(line, htmlLike) ==>
            here == RegionLines(lines[i + 1..], tags, htmlLike, active))
      && (active.Some? && !Contains(line, EndDirective(active.value)) && !IsMarker(line, htmlLike) ==>
            TerminateEach(here, "\n") == line + "\n" + TerminateEach(RegionLines(lines[i + 1..], tags, htmlLike, active), "\n"))
  {
    assert lines[i..][0] == lines[i] && lines[i..][1..] == lines[i + 1..];
    if active.Some? && !Contains(lines[i], EndDirective(active.value)) && !IsMarker(lines[i], htmlLike) {
      TerminateEachCons(lines[i], RegionLines(lines[i + 1..], tags, htmlLike, active), "\n");
    }
  }

  lemma TerminateEachCons(line: string, rest: seq<string>, newline: string)
    ensures TerminateEach([line] + rest, newline) == line + newline + TerminateEach(rest, newline)
  {
    assert ([line] + rest)[1..] == rest;
  }

  /** True when `a` can be obtained from `b` by deleting elements. */
  ghost predicate IsSubsequence<T>(a: seq<T>, b: seq<T>) {
    |a| == 0 || (|b| > 0 && ((a[0] == b[0] && IsSubsequence(a[1..], b[1..])) || IsSubsequence(a, b[1..])))
  }

  lemma SubsequenceOfTail<T>(a: seq<T>, b: seq<T>)
    requires |b| > 0 && IsSubsequence(a, b[1..])
    ensures IsSubsequence(a, b)
  {
  }

  /**
    The text `filterByTag` produces. With the single tag `**` every marker line is
    dropped and the rest joined by `\n`; otherwise the lines inside the regions of
    the listed tags are kept, each followed by `\n`.
   */
  function TaggedContent(source: string, syntax: string, tags: seq<string>): string {
    var htmlLike := HtmlLike(syntax);
    if |tags| == 1 && tags[0] == "**" then
      Join(NonMarkers(JavaSplit(source, AnyBreak), htmlLike), "\n")
    else
      TerminateEach(RegionLines(ReadLines(source), tags, htmlLike, None), "\n")
  }

  /** `filterByTag`, written as the source writes it: one pass over the lines, appending to a buffer. */
  method FilterByTag(source: string, syntax: string, tags: seq<string>) returns (result: string)
    ensures result == TaggedContent(source, syntax, tags)
  {
    var htmlLike := HtmlLike(syntax);
    if |tags| == 1 && tags[0] == "**" {
      result := Join(NonMarkers(JavaSplit(source, AnyBreak), htmlLike), "\n");
      return;
    }
    var lines := ReadLines(source);
    var activeTag: Option<string> := None;
    result := "";
    var i := 0;
    while i < |lines|
      invariant 0 <= i <= |lines|
      invariant result + TerminateEach(RegionLines(lines[i..], tags, htmlLike, activeTag), "\n")
             == TerminateEach(RegionLines(lines, tags, htmlLike, None), "\n")
    {
      var emitted;
      emitted, activeTag := ProcessLine(lines, i, tags, htmlLike, activeTag);
      result := result + emitted;
      i := i + 1;
    }
  }

  /** One iteration of the `filterByTag` loop: what line `i` adds to the buffer, and the tag open after it. */
  method ProcessLine(lines: seq<string>, i: nat, tags: seq<string>, htmlLike: bool, active: Option<string>)
    returns (emitted: string, next: Option<string>)
    requires i < |lines|
    ensures TerminateEach(RegionLines(lines[i..], tags, htmlLike, active), "\n")
         == emitted + TerminateEach(RegionLines(lines[i + 1..], tags, htmlLike, next), "\n")
  {
    var line := lines[i];
    RegionLinesStep(lines, i, tags, htmlLike, active);
    emitted, next := "", active;
    if active.Some? {
      if Contains(line, EndDirective(active.value)) {
        next := None;
      } else if !IsMarker(line, htmlLike) {
        emitted := line + "\n";
      }
    } else {
      next := DetermineActiveTag(line, tags);
    }
  }

  /** The filtered lines are input lines, in input order. */
  lemma {:induction false} RegionLinesAreSubsequence(lines: seq<string>, tags: seq<string>, htmlLike: bool, active: Option<string>)
    ensures IsSubsequence(RegionLines(lines, tags, htmlLike, active), lines)
    decreases |lines|
  {
    if |lines| > 0 {
      var r := RegionLines(lines, tags, htmlLike, active);
      var line := lines[0];
      match active
      case None =>
        RegionLinesAreSubsequence(lines[1..], tags, htmlLike, DetermineActiveTag(line, tags));
        SubsequenceOfTail(r, lines);
      case Some(t) =>
        if Contains(line, EndDirective(t)) {
          RegionLinesAreSubsequence(lines[1..], tags, htmlLike, None);
          SubsequenceOfTail(r, lines);
        } else if IsMarker(line, htmlLike) {
          RegionLinesAreSubsequence(lines[1..], tags, htmlLike, active);
          SubsequenceOfTail(r, lines);
        } else {
          RegionLinesAreSubsequence(lines[1..], tags, htmlLike, active);
          assert r[1..] == RegionLines(lines[1..], tags, htmlLike, active);
        }
    }
  }

  /** No marker line is ever part of the output. */
  lemma {:induction false} RegionLinesHaveNoMarkers(lines: seq<string>, tags: seq<string>, htmlLike: bool, active: Option<string>)
    ensures forall l | l in RegionLines(lines, tags, htmlLike, active) :: !IsMarker(l, htmlLike)
    decreases |lines|
  {
    if |lines| > 0 {
      var line := lines[0];
      match active
      case None =>
        RegionLinesHaveNoMarkers(lines[1..], tags, htmlLike, DetermineActiveTag(line, tags));
      case Some(t) =>
        if Contains(line, EndDirective(t)) {
          RegionLinesHaveNoMarkers(lines[1..], tags, htmlLike, None);
        } else {
          RegionLinesHaveNoMarkers(lines[1..], tags, htmlLike, active);
        }
    }
  }

  /** Without an opening directive of a listed tag nothing is kept. */
  lemma {:induction false} NoOpeningNoOutput(lines: seq<string>, tags: seq<string>, htmlLike: bool)
    requires forall i, j | 0 <= i < |lines| && 0 <= j < |tags| :: !Contains(lines[i], OpenDirective(tags[j]))
    ensures RegionLines(lines, tags, htmlLike, None) == []
    decreases |lines|
  {
    if |lines| > 0 {
      assert DetermineActiveTag(lines[0], tags) == None;
      NoOpeningNoOutput(lines[1..], tags, htmlLike);
    }
  }

  /**
    A region: after an opening line for tag `t`, every line up to the next line
    holding `end::t[]` is kept unless it is a marker, and filtering resumes after it.
   */
  lemma {:induction false} RegionBody(body: seq<string>, close: string, rest: seq<string>, tags: seq<string>, htmlLike: bool, t: string)
    requires forall i | 0 <= i < |body| :: !Contains(body[i], EndDirective(t))
    requires Contains(close, EndDirective(t))
    ensures RegionLines(body + [close] + rest, tags, htmlLike, Some(t))
         == NonMarkers(body, htmlLike) + RegionLines(rest, tags, htmlLike, None)
    decreases |body|
  {
    var lines := body + [close] + rest;
    if |body| == 0 {
      assert lines[0] == close && lines[1..] == rest;
    } else {
      assert lines[0] == body[0];
      assert lines[1..] == body[1..] + [close] + rest;
      RegionActiveStep(lines, tags, htmlLike, t);
      RegionBody(body[1..], close, rest, tags, htmlLike, t);
      NonMarkersStep(body, htmlLike);
      var kept, tail := NonMarkers(body[1..], htmlLike), RegionLines(rest, tags, htmlLike, None);
      assert RegionLines(lines[1..], tags, htmlLike, Some(t)) == kept + tail;
      if !IsMarker(body[0], htmlLike) {
        ConsConcat(body[0], kept, tail);
      }
    }
  }

  lemma ConsConcat<T>(x: T, a: seq<T>, b: seq<T>)
    ensures [x] + (a + b) == [x] + a + b
  {
  }

  /** Inside a region, a line that does not close it is kept unless it is a marker. */
  lemma RegionActiveStep(lines: seq<string>, tags: seq<string>, htmlLike: bool, t: string)
    requires |lines| > 0 && !Contains(lines[0], EndDirective(t))
    ensures RegionLines(lines, tags, htmlLike, Some(t))
         == (if IsMarker(lines[0], htmlLike) then [] else [lines[0]]) + RegionLines(lines[1..], tags, htmlLike, Some(t))
  {
  }

  /** Filtering a non-empty list: its first line, unless a marker, then the rest filtered. */
  lemma NonMarkersStep(lines: seq<string>, htmlLike: bool)
    requires |lines| > 0
    ensures NonMarkers(lines, htmlLike)
         == (if IsMarker(lines[0], htmlLike) then [] else [lines[0]]) + NonMarkers(lines[1..], htmlLike)
  {
  }

  /** An opening line followed by its region: the region's non-marker lines come first. */
  lemma RegionAfterOpening(open: string, body: seq<string>, close: string, rest: seq<string>, tags: seq<string>, htmlLike: bool, t: string)
    requires DetermineActiveTag(open, tags) == Some(t)
    requires forall i | 0 <= i < |body| :: !Contains(body[i], EndDirective(t))
    requires Contains(close, EndDirective(t))
    ensures RegionLines([open] + body + [close] + rest, tags, htmlLike, None)
         == NonMarkers(body, htmlLike) + RegionLines(rest, tags, htmlLike, None)
  {
    var lines := [open] + body + [close] + rest;
    assert lines[1..] == body + [close] + rest;
    RegionBody(body, close, rest, tags, htmlLike, t);
  }

  // ---------------------------------------------------------------------------
  // Indentation
  // ---------------------------------------------------------------------------

  /**
    `Character.isWhitespace`: the space separators other than the non-breaking ones,
    the line and paragraph separators, and the control characters tab to carriage
    return and file to unit separator.
   */
  predicate IsJavaWhitespace(c: char) {
    || c == ' ' || ('\t' <= c <= '\r') || ('\U{001C}' <= c <= '\U{001F}')
    || c == '\U{1680}' || ('\U{2000}' <= c <= '\U{2006}') || ('\U{2008}' <= c <= '\U{200A}')
    || c == '\U{2028}' || c == '\U{2029}' || c == '\U{205F}' || c == '\U{3000}'
  }

  /** `line.trim().isEmpty()`: every character is at most a space. */
  predicate IsBlank(line: string) {
    forall i | 0 <= i < |line| :: line[i] <= ' '
  }

  /** The number of leading whitespace characters. */
  function Indent(line: string): (r: nat)
    ensures r <= |line|
    ensures forall i | 0 <= i < r :: IsJavaWhitespace(line[i])
    ensures r < |line| ==> !IsJavaWhitespace(line[r])
  {
    if |line| > 0 && IsJavaWhitespace(line[0]) then 1 + Indent(line[1..]) else 0
  }

  /** A line `getMinIndent` measures: not blank, and not made of whitespace only. */
  predicate HasText(line: string) {
    !IsBlank(line) && Indent(line) < |line|
  }

  /** The smallest indentation among the measured lines, if there is one. */
  function LeastIndent(lines: seq<string>): (r: Option<nat>)
    ensures r.None? <==> forall i | 0 <= i < |lines| :: !HasText(lines[i])
    ensures r.Some? ==> forall i | 0 <= i < |lines| && HasText(lines[i]) :: r.value <= Indent(lines[i])
    ensures r.Some? ==> exists i | 0 <= i < |lines| :: HasText(lines[i]) && Indent(lines[i]) == r.value
  {
    if |lines| == 0 then None
    else
      var rest := LeastIndent(lines[1..]);
      assert forall i | 1 <= i < |lines| :: lines[i] == lines[1..][i - 1];
      if !HasText(lines[0]) then rest
      else
        var here := Indent(lines[0]);
        if rest.Some? && rest.value < here then
          var j :| 0 <= j < |lines[1..]| && HasText(lines[1..][j]) && Indent(lines[1..][j]) == rest.value;
          assert lines[j + 1] == lines[1..][j];
          rest
        else Some(here)
  }

  /** `getMinIndent`: the least indentation of the measured lines, 0 when there are none. */
  function MinIndent(lines: seq<string>): (m: nat)
    ensures forall i | 0 <= i < |lines| && HasText(lines[i]) :: m <= Indent(lines[i])
    ensures (forall i | 0 <= i < |lines| :: !HasText(lines[i])) ==> m == 0
    ensures m > 0 ==> exists i | 0 <= i < |lines| :: HasText(lines[i]) && Indent(lines[i]) == m
  {
    match LeastIndent(lines)
    case None => 0
    case Some(m) => m
  }

  /**
    One line of the `trimIndent` loop as written: blank lines become empty, every
    other line loses its first `m` characters, which fails when it is shorter.
   */
  function TrimLineAsWritten(line: string, m: nat): (r: Option<string>)
    ensures r.None? <==> !IsBlank(line) && |line| < m
    ensures r.Some? && !IsBlank(line) ==> line == line[..m] + r.value
  {
    if IsBlank(line) then Some("")
    else if m <= |line| then Some(line[m..])
    else None
  }

  const SubstringOutOfBounds: string := "string index out of range"

  /** `trimIndent` as written; `Err` stands for the out-of-bounds `substring` call. */
  function TrimIndentAsWritten(source: string, newline: string): (r: Result<string, string>)
    ensures r.Err? <==>
      var lines := JavaSplit(source, CrLf);
      MinIndent(lines) > 0 && exists i | 0 <= i < |lines| :: TrimLineAsWritten(lines[i], MinIndent(lines)).None?
  {
    var lines := JavaSplit(source, CrLf);
    var m := MinIndent(lines);
    if m == 0 then Ok(source) else TrimAllAsWritten(lines, m, newline)
  }

  function TrimAllAsWritten(lines: seq<string>, m: nat, newline: string): (r: Result<string, string>)
    ensures r.Err? <==> exists i | 0 <= i < |lines| :: TrimLineAsWritten(lines[i], m).None?
  {
    if |lines| == 0 then Ok("")
    else
      assert forall i | 1 <= i < |lines| :: lines[i] == lines[1..][i - 1];
      match TrimLineAsWritten(lines[0], m)
      case None => Err(SubstringOutOfBounds)
      case Some(first) =>
        match TrimAllAsWritten(lines[1..], m, newline)
        case Err(e) => Err(e)
        case Ok(rest) => Ok(first + newline + rest)
  }

  /**
    One line of the loop, corrected: a blank line becomes empty, any other line loses
    its first `m` characters, all whitespace, and a line too short for that, which can
    only be made of whitespace, becomes empty instead of failing.
   */
  function TrimLine(line: string, m: nat): (r: string)
    requires HasText(line) ==> m <= Indent(line)
    ensures !IsBlank(line) && m <= |line| ==> line == line[..m] + r && forall k | 0 <= k < m :: IsJavaWhitespace(line[k])
    ensures IsBlank(line) || |line| < m ==> r == ""
    ensures TrimLineAsWritten(line, m).Some? ==> r == TrimLineAsWritten(line, m).value
  {
    if IsBlank(line) || |line| < m then "" else line[m..]
  }

  /**
    Each non-blank line at least `m` long without its first `m` characters, all
    whitespace; every other line empty.
   */
  function TrimLines(lines: seq<string>, m: nat): (r: seq<string>)
    requires forall i | 0 <= i < |lines| && HasText(lines[i]) :: m <= Indent(lines[i])
    ensures |r| == |lines|
    ensures forall i | 0 <= i < |lines| && !IsBlank(lines[i]) && m <= |lines[i]| ::
      lines[i] == lines[i][..m] + r[i] && forall k | 0 <= k < m :: IsJavaWhitespace(lines[i][k])
    ensures forall i | 0 <= i < |lines| && (IsBlank(lines[i]) || |lines[i]| < m) :: r[i] == ""
  {
    seq(|lines|, i requires 0 <= i < |lines| => TrimLine(lines[i], m))
  }

  /**
    `trimIndent`, corrected: the source itself when the least indentation is 0,
    otherwise each line trimmed by `TrimLine` and followed by the platform newline.
    It returns what the source returns whenever the source does not fail.
   */
  function TrimIndent(source: string, newline: string): (r: string)
    ensures MinIndent(JavaSplit(source, CrLf)) == 0 ==> r == source
    ensures MinIndent(JavaSplit(source, CrLf)) > 0 ==> r == Trimmed(JavaSplit(source, CrLf), newline)
    ensures TrimIndentAsWritten(source, newline).Ok? ==> TrimIndentAsWritten(source, newline) == Ok(r)
  {
    TrimIndentAgrees(source, newline);
    var lines := JavaSplit(source, CrLf);
    if MinIndent(lines) == 0 then source else Trimmed(lines, newline)
  }

  /** Where the source's `trimIndent` succeeds, it builds the corrected text. */
  lemma TrimIndentAgrees(source: string, newline: string)
    ensures var lines := JavaSplit(source, CrLf);
      TrimIndentAsWritten(source, newline).Ok? ==>
        TrimIndentAsWritten(source, newline) == Ok(if MinIndent(lines) == 0 then source else Trimmed(lines, newline))
  {
    var lines := JavaSplit(source, CrLf);
    var m := MinIndent(lines);
    if m > 0 {
      TrimAllAgrees(lines, m, newline);
    }
  }

  /** Every line trimmed by the least indentation and followed by `newline`. */
  function Trimmed(lines: seq<string>, newline: string): string {
    TerminateEach(TrimLines(lines, MinIndent(lines)), newline)
  }

  /** Where no line fails, the loop as written builds the corrected text. */
  lemma {:induction false} TrimAllAgrees(lines: seq<string>, m: nat, newline: string)
    requires forall i | 0 <= i < |lines| && HasText(lines[i]) :: m <= Indent(lines[i])
    ensures TrimAllAsWritten(lines, m, newline).Ok? ==>
      TrimAllAsWritten(lines, m, newline) == Ok(TerminateEach(TrimLines(lines, m), newline))
    decreases |lines|
  {
    if |lines| > 0 {
      assert forall i | 1 <= i < |lines| :: lines[i] == lines[1..][i - 1];
      TrimAllAgrees(lines[1..], m, newline);
      var out := TrimLines(lines, m);
      assert out[1..] == TrimLines(lines[1..], m);
      assert out[0] == TrimLine(lines[0], m);
      assert TerminateEach(out, newline) == out[0] + newline + TerminateEach(out[1..], newline);
    }
  }

  /** A line of one Unicode space under an indented line: the written `trimIndent` fails. */
  lemma WhitespaceOnlyLineBreaksTrimIndent(newline: string)
    ensures TrimIndentAsWritten("  x" + "\n" + "\U{2000}", newline).Err?
  {
    var lines := ["  x", "\U{2000}"];
    TwoLines("  x", "\U{2000}");
    ExampleMinIndent();
    assert lines[1][0] > ' ';
    assert TrimLineAsWritten(lines[1], 2).None?;
  }

  /** On the same text the corrected `trimIndent` empties the short whitespace line. */
  lemma WhitespaceOnlyLineBecomesEmpty(newline: string)
    ensures TrimIndent("  x" + "\n" + "\U{2000}", newline) == "x" + newline + newline
  {
    var source := "  x" + "\n" + "\U{2000}";
    var lines := JavaSplit(source, CrLf);
    TwoLines("  x", "\U{2000}");
    assert lines == ["  x", "\U{2000}"];
    ExampleMinIndent();
    assert MinIndent(lines) == 2;
    ExampleTrimLines();
    assert TrimLines(lines, 2) == ["x", ""];
    ExampleTerminated(newline);
  }

  lemma ExampleTerminated(newline: string)
    ensures TerminateEach(["x", ""], newline) == "x" + newline + newline
  {
    assert ["x", ""][1..] == [""] && [""][1..] == [];
    assert TerminateEach([""], newline) == "" + newline + "" == newline;
  }

  lemma ExampleTrimLines()
    ensures TrimLines(["  x", "\U{2000}"], 2) == ["x", ""]
  {
    assert "  x"[2] > ' ' && "  x"[2..] == "x";
    assert "\U{2000}"[0] > ' ';
  }

  lemma ExampleMinIndent()
    ensures MinIndent(["  x", "\U{2000}"]) == 2
  {
    var lines := ["  x", "\U{2000}"];
    assert Indent("  x") == 2 by {
      assert "  x"[1..] == " x" && " x"[1..] == "x";
    }
    assert HasText(lines[0]);
    assert Indent("\U{2000}") == 1;
    assert !HasText(lines[1]);
  }

  /** With no indentation to remove, or no measured line, the source comes back unchanged. */
  lemma TrimIndentKeepsUnindentedSource(source: string, newline: string)
    requires var lines := JavaSplit(source, CrLf);
      || (forall i | 0 <= i < |lines| :: !HasText(lines[i]))
      || (exists i | 0 <= i < |lines| :: HasText(lines[i]) && Indent(lines[i]) == 0)
    ensures TrimIndent(source, newline) == source
    ensures TrimIndentAsWritten(source, newline) == Ok(source)
  {
  }

  /**
    Every measured line loses exactly the common indentation, and one of them is
    left with none.
   */
  lemma TrimmedIndentation(lines: seq<string>)
    ensures var m := MinIndent(lines);
      var out := TrimLines(lines, m);
      && (forall i | 0 <= i < |lines| && HasText(lines[i]) :: Indent(out[i]) == Indent(lines[i]) - m)
      && (m > 0 ==> exists i | 0 <= i < |lines| :: HasText(lines[i]) && Indent(out[i]) == 0 && |out[i]| > 0)
  {
    var m := MinIndent(lines);
    var out := TrimLines(lines, m);
    forall i | 0 <= i < |lines| && HasText(lines[i])
      ensures Indent(out[i]) == Indent(lines[i]) - m
    {
      IndentOfSuffix(lines[i], m);
    }
    if m > 0 {
      var i :| 0 <= i < |lines| && HasText(lines[i]) && Indent(lines[i]) == m;
      IndentOfSuffix(lines[i], m);
    }
  }

  /** Dropping part of the indentation of a line lowers its indentation by as much. */
  lemma {:induction false} IndentOfSuffix(line: string, m: nat)
    requires m <= Indent(line)
    ensures Indent(line[m..]) == Indent(line) - m
    decreases m
  {
    if m > 0 {
      assert line[1..][m - 1..] == line[m..];
      IndentOfSuffix(line[1..], m - 1);
    }
  }
}

=== FILE: text.dfy ===
/**
  String helpers with the Java library semantics the text-processing code relies on:
  substring search, last index, joining, and `String.split` / `Pattern.splitAsStream`
  / `BufferedReader.readLine` line splitting.
 */
module Text {

  predicate StartsWith(s: string, p: string) {
    |p| <= |s| && s[..|p|] == p
  }

  predicate EndsWith(s: string, p: string) {
    |p| <= |s| && s[|s| - |p|..] == p
  }

  /** `sub` occurs in `s` starting at position `i`. */
  predicate OccursAt(s: string, sub: string, i: int) {
    0 <= i && i + |sub| <= |s| && s[i..i + |sub|] == sub
  }

  /** `s.contains(sub)`. */
  predicate Contains(s: string, sub: string) {
    exists i | 0 <= i <= |s| - |sub| :: OccursAt(s, sub, i)
  }

  /** `s.lastIndexOf(c)`: the last position holding `c`, or -1. */
  function LastIndexOf(s: string, c: char): (r: int)
    ensures -1 <= r < |s|
    ensures r >= 0 ==> s[r] == c
    ensures forall j | r < j < |s| :: s[j] != c
  {
    if |s| == 0 then -1
    else if s[|s| - 1] == c then |s| - 1
    else LastIndexOf(s[..|s| - 1], c)
  }

  /** `s.indexOf(c)`: the first position holding `c`, or -1. */
  function IndexOf(s: string, c: char): (r: int)
    ensures -1 <= r < |s|
    ensures r >= 0 ==> s[r] == c
    ensures forall j | 0 <= j < |s| && (r < 0 || j < r) :: s[j] != c
  {
    if |s| == 0 then -1
    else if s[0] == c then 0
    else var k := IndexOf(s[1..], c); if k < 0 then -1 else k + 1
  }

  /** `String.join(sep, parts)`. */
  function Join(parts: seq<string>, sep: string): string {
    if |parts| == 0 then ""
    else if |parts| == 1 then parts[0]
    else parts[0] + sep + Join(parts[1..], sep)
  }

  /** The separators the splitting code uses. */
  datatype Separator =
    | OnChar(c: char)
      /** The regular expression `\r\n|\r|\n`, also the terminators `readLine` recognises. */
    | CrLf
      /** The regular expression `\R`: any Unicode line break sequence. */
    | AnyBreak

  predicate IsBreakChar(c: char, sep: Separator) {
    match sep
    case OnChar(d) => c == d
    case CrLf => c == '\n' || c == '\r'
    case AnyBreak =>
      c == '\n' || c == '\r' || c == '\U{000B}' || c == '\U{000C}'
      || c == '\U{0085}' || c == '\U{2028}' || c == '\U{2029}'
  }

  /** Length of the separator starting at `s[0]`, or 0 when none starts there. */
  function SeparatorLength(s: string, sep: Separator): (k: nat)
    requires |s| > 0
    ensures k <= |s|
    ensures k > 0 <==> IsBreakChar(s[0], sep)
  {
    if !IsBreakChar(s[0], sep) then 0
    else if !sep.OnChar? && s[0] == '\r' && |s| > 1 && s[1] == '\n' then 2
    else 1
  }

  /** Every piece between separators, leading and trailing empty pieces included. */
  function Pieces(s: string, sep: Separator): (r: seq<string>)
    ensures |r| >= 1
    ensures |r| == 1 <==> forall i | 0 <= i < |s| :: !IsBreakChar(s[i], sep)
    ensures |r| == 1 ==> r[0] == s
    ensures forall p, i | p in r && 0 <= i < |p| :: !IsBreakChar(p[i], sep)
    decreases |s|
  {
    if |s| == 0 then [""]
    else
      var k := SeparatorLength(s, sep);
      if k > 0 then
        [""] + Pieces(s[k..], sep)
      else
        var rest := Pieces(s[1..], sep);
        assert forall i | 0 <= i < |rest[0]| :: rest[0][i] == ([s[0]] + rest[0])[i + 1];
        [[s[0]] + rest[0]] + rest[1..]
  }

  /** A character that is no separator joins the first piece of what follows it. */
  lemma PiecesOfCons(c: char, s: string, sep: Separator)
    requires !IsBreakChar(c, sep)
    ensures Pieces([c] + s, sep) == [[c] + Pieces(s, sep)[0]] + Pieces(s, sep)[1..]
  {
    assert ([c] + s)[1..] == s;
  }

  /** A one-character separator other than a carriage return starts a new piece. */
  lemma PiecesOfSeparatorCons(c: char, s: string, sep: Separator)
    requires IsBreakChar(c, sep) && c != '\r'
    ensures Pieces([c] + s, sep) == [""] + Pieces(s, sep)
  {
    assert ([c] + s)[0] == c && ([c] + s)[1..] == s;
    assert SeparatorLength([c] + s, sep) == 1;
  }

  function DropTrailingEmpty(ps: seq<string>): (r: seq<string>)
    ensures |r| <= |ps| && r == ps[..|r|]
    ensures |r| > 0 ==> r[|r| - 1] != ""
    ensures forall i | |r| <= i < |ps| :: ps[i] == ""
  {
    if |ps| == 0 then []
    else if ps[|ps| - 1] == "" then DropTrailingEmpty(ps[..|ps| - 1])
    else ps
  }

  /**
    `String.split` and `Pattern.splitAsStream`: the input itself when the separator
    never occurs, otherwise the pieces with trailing empty pieces removed.
   */
  function JavaSplit(s: string, sep: Separator): (r: seq<string>)
    ensures (forall i | 0 <= i < |s| :: !IsBreakChar(s[i], sep)) ==> r == [s]
  {
    var ps := Pieces(s, sep);
    if |ps| == 1 then ps else DropTrailingEmpty(ps)
  }

  /** The lines `BufferedReader.readLine` returns one after another until it returns null. */
  function ReadLines(s: string): (r: seq<string>)
    ensures s == "" ==> r == []
  {
    if s == "" then []
    else
      var ps := Pieces(s, CrLf);
      if ps[|ps| - 1] == "" then ps[..|ps| - 1] else ps
  }

  /** Two lines without line breaks, joined by one `\n`, split back into the two. */
  lemma TwoLines(a: string, b: string)
    requires forall i | 0 <= i < |a| :: !IsBreakChar(a[i], CrLf)
    requires forall i | 0 <= i < |b| :: !IsBreakChar(b[i], CrLf)
    requires b != ""
    ensures JavaSplit(a + "\n" + b, CrLf) == [a, b]
  {
    PiecesOfTwoLines(a, b);
    assert a + "\n" + b == a + ['\n'] + b;
  }

  lemma {:induction false} PiecesOfTwoLines(a: string, b: string)
    requires forall i | 0 <= i < |a| :: !IsBreakChar(a[i], CrLf)
    requires forall i | 0 <= i < |b| :: !IsBreakChar(b[i], CrLf)
    ensures Pieces(a + ['\n'] + b, CrLf) == [a, b]
    decreases |a|
  {
    if |a| == 0 {
      PiecesOfSeparatorCons('\n', b, CrLf);
      assert a + ['\n'] + b == ['\n'] + b;
    } else {
      PiecesOfTwoLines(a[1..], b);
      PiecesOfTwoLinesStep(a, b, Pieces(a[1..] + ['\n'] + b, CrLf));
    }
  }

  lemma PiecesOfTwoLinesStep(a: string, b: string, later: seq<string>)
    requires |a| > 0 && !IsBreakChar(a[0], CrLf)
    requires later == Pieces(a[1..] + ['\n'] + b, CrLf) == [a[1..], b]
    ensures Pieces(a + ['\n'] + b, CrLf) == [a, b]
  {
    var t := a[1..] + ['\n'] + b;
    SplitHead(a, ['\n'], b);
    PiecesOfCons(a[0], t, CrLf);
    JoinFirst(a[0], later, a[1..], b);
  }

  lemma JoinFirst(c: char, p: seq<string>, u: string, v: string)
    requires p == [u, v]
    ensures [[c] + p[0]] + p[1..] == [[c] + u, v]
  {
  }

  /** Splitting off the first element of a non-empty left operand. */
  lemma SplitHead<T>(a: seq<T>, m: seq<T>, n: seq<T>)
    requires |a| > 0
    ensures a + m + n == [a[0]] + (a[1..] + m + n)
    ensures [a[0]] + a[1..] == a
  {
  }

  /** One character, the separator, another character: two pieces. */
  lemma PiecesAroundSeparator(x: char, c: char, y: char)
    requires x != c && y != c
    ensures Pieces([x, c, y], OnChar(c)) == [[x], [y]]
  {
    var sep := OnChar(c);
    var s := [x, c, y];
    assert s[1..] == [c, y] && s[1..][1..] == [y];
    assert Pieces([y], sep) == [[y]];
    assert SeparatorLength([c, y], sep) == 1;
    assert Pieces([c, y], sep) == [""] + [[y]];
    assert SeparatorLength(s, sep) == 0;
    assert [x] + "" == [x];
  }

  /** One character followed by two separators: the character, then two empty pieces. */
  lemma PiecesBeforeTwoSeparators(x: char, c: char)
    requires x != c
    ensures Pieces([x, c, c], OnChar(c)) == [[x], "", ""]
  {
    var sep := OnChar(c);
    var s := [x, c, c];
    assert s[1..] == [c, c] && s[1..][1..] == [c] && [c][1..] == [];
    assert SeparatorLength([c], sep) == 1;
    assert Pieces([c], sep) == [""] + [""];
    assert SeparatorLength([c, c], sep) == 1;
    assert Pieces([c, c], sep) == [""] + ["", ""];
    assert SeparatorLength(s, sep) == 0;
    assert [x] + "" == [x];
  }

  /** `"a,b".split(",")` gives both pieces. */
  lemma SplitPairExample()
    ensures JavaSplit("a,b", OnChar(',')) == ["a", "b"]
  {
    PiecesAroundSeparator('a', ',', 'b');
  }

  /** `"a,,".split(",")` drops the trailing empty pieces. */
  lemma SplitTrailingExample()
    ensures JavaSplit("a,,", OnChar(',')) == ["a"]
  {
    PiecesBeforeTwoSeparators('a', ',');
    assert DropTrailingEmpty(["a", "", ""]) == ["a"] by {
      assert ["a", "", ""][..2] == ["a", ""];
      assert ["a", ""][..1] == ["a"];
    }
  }

  /** Splitting the empty string gives one empty piece. */
  lemma SplitEmptyExample()
    ensures JavaSplit("", OnChar(',')) == [""]
  {
  }
}

=== FILE: wrappers.dfy ===
/** Option and Result types shared by the modules of this model. */
module Wrappers {

  /** A value that may be absent; stands for a nullable Java reference. */
  datatype Option<+T> = None | Some(value: T)

  /** Either a value or the error the source would throw instead of returning. */
  datatype Result<+R, +E> = Ok(value: R) | Err(error: E)
}
